=== FILE: README.md ===
# BubuLearn lesson synchronisation, modelled in Dafny

`bubu_module.py` reads a calendar export (an iCalendar file) and creates one
lesson per event in the BubuLearn CRM. The steps are:

1. `ICSParser.get_events`:
   - splits the file on `BEGIN:VEVENT`;
   - reads a phone number from each block's `SUMMARY` and a UTC timestamp from its `DTSTART`;
   - moves the timestamp three hours forward;
   - keeps the events of the current week, or of the previous week.
2. `BubuLearn` logs in. It then fetches the events already booked since two weeks ago, and the customers and students of every configured product. It indexes customers by their first phone and students by their customer id.
3. `drop_duplicates_events` drops every lesson whose minute already holds a booked event.
4. `add_event` resolves each phone to a product, customer and student. It then posts a 30-minute lesson.
5. `run` logs out at the end, but only when the constructor returned.

The login page request carries no cookies, and its reply seeds the jar with
the two session cookies `XSRF-TOKEN` and `crm_session`. Every later request
carries both, and every request except logout replaces them with the reply's
cookies. Logout sends them and then empties the jar without reading the reply.

The model is purely functional. The file text, "today" and every answer of
the backend are inputs. Python exceptions become `Err` values of a `Result`.
The modules follow the program's layers:

- `Wrappers`: `Option` and `Result`.
- `Civil`: the part of Python's `datetime` that the program uses. This covers proleptic Gregorian ordinals, `weekday()`, adding minutes, subtracting days and `OverflowError` at the ends of years 1..9999.
- `Text`:
  - `str.split` on a non-empty separator and its inverse `join`;
  - `str.replace('%3D', '=')`;
  - zero-padded decimal fields.
- `Seqs`: order-preserving filtering, and the all-or-nothing map that `list(map(...))` becomes when the mapped function may raise.
- `Ics`:
  - the VEVENT split;
  - hand-written scanners with the leftmost and greedy semantics of the two regular expressions `SUMMARY:[^\d]+(\+[\d ]+)` and `DTSTART:([\dTZ]+)\n`;
  - the strict `%Y%m%dT%H%M%SZ` timestamp and the +3 h shift;
  - the Monday-to-Monday window;
  - `get_events`.
- `Session`: the rotating two-cookie jar, the `X-XSRF-TOKEN` header, login and logout.
- `Catalog`: the customer and student indexes, where the last record wins.
- `Sync`: the `strftime` renderings, `drop_duplicates_events`, the resolution and creation request of `add_event`, and the per-lesson loop of `run`.
- `Engine`: the `BubuLearn` constructor and the body of `run`.

## Model

| member | source | states |
|---|---|---|
| Civil.SubDays | bubu_module.py:44 | Going back `n` days fails exactly when no day precedes the date by `n` (before 0001-01-01). Otherwise the result is a valid date whose ordinal is exactly `n` lower. |
| Civil.AddMinutes | bubu_module.py:132 | Adding `n < 1440` minutes fails exactly on 9999-12-31 when the minutes cross midnight. Otherwise the result is a valid date-time exactly `60·n` seconds later on the timeline, with the seconds kept. With Civil.SecondsInjective this fixes the date, including month and year rollover. |
| Civil.OrdinalOrder | bubu_module.py:145 | A date earlier in year, month and day order has the smaller ordinal, so comparing ordinals compares dates. |
| Civil.OrdinalInjective | bubu_module.py:145 | Two valid dates share an ordinal exactly when they are the same date. |
| Civil.SecondsInjective | bubu_module.py:132 | Two valid date-times share a position on the timeline exactly when they are equal. So the result of adding minutes, including its month and year rollover, is determined. |
| Civil.OrdinalBounds | bubu_module.py:137-140 | Ordinals of valid dates lie in `[1, 3652059]`. Only 0001-01-01 has ordinal 1 and only 9999-12-31 has the largest one. These are the ends where stepping a day raises. |
| Text.SplitJoin | bubu_module.py:129 | Joining the pieces of `split(sep)` with `sep` gives back the text, so the split loses nothing. |
| Text.SplitPiecesFree | bubu_module.py:129 | No piece of `split(sep)` contains `sep`. |
| Text.UnquoteQuote | bubu_module.py:115 | Replacing `%3D` by `=` undoes the percent-encoding of `=` in any value that held no `%` of its own. |
| Seqs.FilterKeeps | bubu_module.py:144-146 | Every element a filter keeps satisfies its condition. |
| Seqs.MapAll | bubu_module.py:130-133 | The map succeeds exactly when every element's function succeeds. It then has one result per element, in order. A failure is the error of the first element that failed, with every element before it succeeding. |
| Ics.PhoneAt | bubu_module.py:131 | At a `SUMMARY:` tag, the returned `+` is the last one the greedy `[^\d]+` can reach, and the group runs to the end of the maximal digit-and-space run. No match exists at that tag when `None` is returned. |
| Ics.FindPhone | bubu_module.py:131 | `re.search` finds the leftmost tag position holding a match. At that position it takes the largest group start, and when nothing is found no position matches. |
| Ics.StripSpaces | bubu_module.py:131 | `replace(" ", "")` leaves no space and keeps every other character with its multiplicity and in its order: the result is a subsequence of the input. |
| Ics.ScanPhone | bubu_module.py:131 | No phone is found exactly when the SUMMARY pattern matches nowhere. A found phone is `+` followed only by digits. It is the group of the leftmost match, taking the match with the latest group start at that position, with its spaces removed. |
| Ics.FindStart | bubu_module.py:132 | `DTSTART:` followed by a maximal run of digits, `T` and `Z` that is then followed by a newline is found at its leftmost position. When nothing is found, no position matches. |
| Ics.ScanStart | bubu_module.py:132 | No timestamp is found exactly when the DTSTART pattern matches nowhere. A found one is a non-empty run of digits, `T` and `Z`. It is the group of the leftmost match. |
| Ics.ParseStamp | bubu_module.py:132 | Every timestamp read is a valid date-time. |
| Ics.StampRoundTrip | bubu_module.py:132 | Parsing the `%Y%m%dT%H%M%SZ` rendering of any valid date-time gives it back. |
| Ics.StampCanonical | bubu_module.py:132 | Every text that parses is the rendering of what it parses to. |
| Ics.StampUnique | bubu_module.py:132 | A text the parser accepts renders the date-time it reads and no other. |
| Ics.ParseBlock | bubu_module.py:130-133 | Each outcome happens exactly in its own case. `NoPhone`: the SUMMARY pattern matches nowhere. `NoStart`: there is a phone but the DTSTART pattern matches nowhere. `BadTimestamp`: both match but the DTSTART text renders no valid date-time. `DateOverflow`: it renders one within the last 3 hours of 9999-12-31. Success: it renders one before that. The phone is then the scanned one, and the date is a valid date-time exactly 3 hours after the rendered one |
| Ics.BlocksCoverText | bubu_module.py:129 | The text before the first `BEGIN:VEVENT`, the marker and the blocks joined back give the file. No block holds a marker. There are no blocks exactly when the file has no marker. |
| Ics.ExtractAll | bubu_module.py:130-133 | There is one candidate per block, in block order, and it is that block's parse. Extraction succeeds exactly when every block parses. A failure carries the error of the first block that fails, every block before it parsing, and nothing partial is returned |
| Ics.MondayUnique | bubu_module.py:137-138 | The Monday reached by stepping back from a day is the only Monday at most six days before it. |
| Ics.WeekWindow | bubu_module.py:135-143 | The window is `[Monday, Monday + 7)` around today, also when today is a Monday, or that window moved back a week. It is produced exactly when every date the loops and the shift step through exists. Otherwise the result is `DateOverflow`. |
| Ics.InWeek | bubu_module.py:144-147 | The kept events are in file order, each has its calendar date inside the window, and every event inside the window is kept, as often as it occurs |
| Ics.GetEvents | bubu_module.py:128-147 | The result is an error exactly when extraction fails or the window does not exist. An extraction error is passed on, and a missing window after a successful extraction is `DateOverflow`. Otherwise it is the extracted candidates whose calendar date lies in the Monday-to-Monday window around today, in file order. Every one of them is in the window. |
| Session.CookieHeader | bubu_module.py:31 | The `Cookie` header exists exactly when both tokens are in the jar, and carries their current values. |
| Session.CookieHeaderSplits | bubu_module.py:31 | When neither token holds a `;`, splitting the header on `; ` gives back exactly the two `name=value` pairs, XSRF token first. |
| Session.XsrfHeaderDecodes | bubu_module.py:115 | The `X-XSRF-TOKEN` header is the token the backend percent-encoded into the cookie. |
| Session.Rotate | bubu_module.py:33-34 | Rotation succeeds exactly when the reply carries both cookies. Both tokens then take the reply's values, and no other entry changes. |
| Session.RotateLeftover | bubu_module.py:33-34 | After a rotation that raised on the session cookie, the jar has the XSRF token added or replaced when the reply carried one. Every other entry keeps its value, and no other key appears. |
| Session.Exchange | bubu_module.py:45-49 | Without both tokens no request can be built. A request succeeds exactly when a reply arrives with both cookies. The jar then holds the reply's tokens and has the same keys. On failure the keys are unchanged, every entry but the XSRF token keeps its value, and the XSRF token is the reply's when a request was sent and its reply carried one. Otherwise the jar is unchanged. |
| Session.HalfRotation | bubu_module.py:33-34 | A reply with a new XSRF token but no session cookie makes the request fail on the session cookie. The jar is left with the new XSRF token beside the old session cookie. |
| Session.LastReplyWins | bubu_module.py:48-49 | After a chain of successful requests, the jar holds exactly the last reply's tokens. |
| Session.Login | bubu_module.py:23-34 | A login succeeds exactly when the page reply arrives with both cookies and a csrf token, and the form reply arrives with both cookies. The jar then holds exactly the two tokens of the form reply. |
| Session.Logout | bubu_module.py:36-40 | Logout succeeds exactly when a logged-in jar's request gets any reply, and it leaves the jar empty. |
| Session.NothingAfterLogout | bubu_module.py:36-40 | After logout, no authenticated request or `Cookie` header can be built. |
| Catalog.IndexBy | bubu_module.py:60 | The keys of a dict comprehension over `enumerate` are exactly the records' keys. Each key maps to the last record carrying it. |
| Catalog.IndexCustomers | bubu_module.py:58-60 | Indexing fails exactly when some customer has no phone. Otherwise the keys are the customers' first phones, and each phone maps to the last customer listing it first. |
| Catalog.IndexStudents | bubu_module.py:68-70 | The keys are the students' customer ids. Each id maps to a student of that customer, the last one in the reply. |
| Sync.FormatDate | bubu_module.py:44 | `%Y-%m-%d` of a valid date is ten characters long. |
| Sync.FormatDateFields | bubu_module.py:44 | `%Y-%m-%d` holds the zero-padded four-digit year at 0..4, the two-digit month at 5..7 and the two-digit day at 8..10, with `-` at 4 and 7 |
| Sync.FormatDateInjective | bubu_module.py:44 | Two valid dates render the same `%Y-%m-%d` exactly when they are equal. |
| Sync.MinuteKey | bubu_module.py:76 | `%Y-%m-%d %H:%M` of a valid date-time is sixteen characters long. |
| Sync.IsoStamp | bubu_module.py:105 | `%Y-%m-%dT%H:%M:%S.000Z` of a valid date-time is twenty-four characters long. |
| Sync.IsoStampFields | bubu_module.py:105-106 | `%Y-%m-%dT%H:%M:%S.000Z` starts with the `%Y-%m-%d` rendering and then holds `T`, the two-digit hour, `:`, the two-digit minute, `:` and the two-digit second, ending in `.000Z` |
| Sync.IsoStampInjective | bubu_module.py:105-106 | Two valid date-times render the same `start` or `end` text exactly when they are equal. |
| Sync.MinuteKeyInjective | bubu_module.py:76 | Two valid date-times have the same key exactly when they share date, hour and minute. |
| Sync.Starts | bubu_module.py:74 | The list of starts exists exactly when every fetched event has one. It then holds them in order. |
| Sync.DropDuplicates | bubu_module.py:72-78 | It raises exactly when some fetched event lacks `start`. Otherwise it returns an order-preserving subsequence of the lessons. A lesson is kept exactly when no fetched `start` equals its minute key. Each kept lesson appears as many times as in the input, and a dropped one not at all. |
| Sync.DropDuplicatesIdempotent | bubu_module.py:72-78 | Filtering the result again against the same events changes nothing. |
| Sync.DropDuplicatesIgnoresPhone | bubu_module.py:76 | Two lessons in the same minute are kept or dropped together, whatever their phones. |
| Sync.FirstWithCustomer | bubu_module.py:83-87 | The loop stops at the first configured product whose customer index holds the phone. It finds none exactly when no product holds it. |
| Sync.Resolve | bubu_module.py:81-89 | An empty product list raises. A found triple uses the first product knowing the phone, that product's customer, and the student of that customer in that same product. When nothing is found, the first product knowing the phone has no student for the customer. |
| Sync.FirstIsUnique | bubu_module.py:83-87 | A product that is the first to know the phone is the one the loop stops at. |
| Sync.NoFallback | bubu_module.py:83-89 | If the first product knowing the phone lacks the student, nothing is found, even when a later product has both customer and student. |
| Sync.LessonPayload | bubu_module.py:104-110 | The payload carries the resolved product, customer and student, the user and the start. Its end is the rendering of the instant 30 minutes later. It fails only when that instant is past 9999-12-31. |
| Sync.Submit | bubu_module.py:112-119 | The request is sent, with the given payload, exactly when the jar holds both tokens. Its `Cookie` and `X-XSRF-TOKEN` headers are the ones the jar gives before the call, and the jar afterwards is the one exchanging the reply leaves. Otherwise the `KeyError` of building the `Cookie` header becomes `NotLoggedIn` and the jar is unchanged. A sent request returns without a raise exactly when its reply is deliverable: it arrived with both cookies and, if the status is 200, a readable body. A reply that is missing or lacks a cookie raises that error. A status-200 reply with an unreadable body raises `MalformedBody`. The result is true exactly when the reply has status 200 and a non-null event id, so a delivered non-200 reply gives false. On any non-raising outcome the jar holds the reply's tokens, and a logged-in jar stays logged in |
| Sync.AddEvent | bubu_module.py:80-121 | An empty product list raises before any request. A phone that does not resolve gives `False` with no request and an unchanged jar. `TimeOverflow` is raised exactly for a resolvable phone whose end time is past 9999-12-31, before any request. A request is sent only for a resolvable phone, with that phone's payload, and always for one whose end time exists when the jar holds both tokens. A sent request raises exactly when its reply is not deliverable. `True` means the lesson was created. A sent request carries the headers of the jar before the call, and the jar afterwards is the one exchanging the reply leaves; without a request the jar is unchanged |
| Sync.HandleLesson | bubu_module.py:164 | The lesson's `add_event` with the next unused answer. No products: `NoProducts` and nothing used. An unresolvable phone: `False`, no request and nothing used. An overflowing end time: `TimeOverflow` and nothing used. Otherwise a logged-in jar sends the payload of the resolved triple. A sent request raises exactly when no deliverable answer is left. Without a raise, its boolean is the creation test of that answer, and the answer is used up. A logged-in jar stays logged in. A sent request carries the headers of the jar it was given, and the jar afterwards is the one exchanging the next answer (or a transport failure when none is left) leaves; without a request the jar is unchanged |
| Sync.SubmitAll | bubu_module.py:163-166 | A `False` does not stop the loop, and a raise ends it. For every lesson handled, a request was sent exactly when its phone resolves. The requests use the answers in order, one each, every used answer was deliverable, and the lesson's boolean is the creation test of its answer. The loop ends after the last lesson or at the first lesson that raised. That lesson raised `NoProducts` as the first lesson, or has a resolvable phone and either an overflowing end (exactly for `TimeOverflow`) or, from a logged-in jar, no deliverable answer left. With products, a logged-in jar, representable end times and a deliverable answer for every lesson, nothing raises. The jar keeps its cookie names. When the loop finishes, the jar is the starting one if no answer was used, and otherwise holds the two tokens of the last answer used |
| Sync.RotatedHeader | bubu_module.py:114-118 | The `Cookie` header of the loop's jar is the starting jar's until an answer is used, and afterwards the one the last used answer's cookies give. |
| Sync.StoppedSummary | bubu_module.py:163-166 | From the record and the stopping reason alone: every `True` is for a resolvable lesson, and nothing raises when products are configured, the jar is logged in, every end time exists and a deliverable answer is there for every lesson. |
| Engine.FetchCatalog | bubu_module.py:52-70 | Fetching succeeds exactly when the jar is logged in, both replies arrive with both cookies and a body, and every customer has a phone. The jar then keeps its keys and holds the students reply's tokens. The customer index is the one built from the customers reply and the student index the one built from the students reply |
| Engine.FetchAll | bubu_module.py:19-21 | One catalog is fetched per configured id, in order. Fetching succeeds exactly when there are enough answers, every one is a successful catalog answer, and the jar is logged in if any id is configured. The i-th catalog is the one built from the i-th answer. The jar ends with the tokens of the last product's students reply, and is unchanged when no id is configured |
| Engine.BuildDirectory | bubu_module.py:17-21 | Every configured id has an entry. A repeated id keeps the catalog of its last fetch. |
| Engine.Connect | bubu_module.py:9-21 | The constructor succeeds exactly when login succeeds, today is after the first 14 days of year 1, the events reply arrives with both cookies and an `events` key, and every configured product gets a successful catalog answer. `started_after` is midnight of the day 14 days before today. The booked events are the body of the events reply. The directory covers every configured product, and each entry is the catalog built from the answers to the last request for that product. The jar holds exactly the two tokens of the last reply: the last product's students reply, or the events reply when no product is configured |
| Engine.DirectoryFromCatalogs | bubu_module.py:19-21 | When the i-th catalog was built from the i-th answers, every directory entry is built from the answers to the last request for that product. |
| Engine.Finish | bubu_module.py:161-173 | After the constructor returned, the logout runs whether or not anything raised, and succeeds exactly when its request gets a reply. A deduplication error ends the run with no lesson submitted. Otherwise the lessons are the deduplicated ones, and the outcomes, answers used and error follow the record of Sync.SubmitAll. The logout request always has a `Cookie` header. It is built from the constructor's jar after a deduplication error or when the loop used no answer, and from the tokens of the last answer used when the loop finished. |
| Engine.Submission | bubu_module.py:163-173 | After a successful deduplication, the loop runs from the constructor's jar, its record is the run's, and the logout is built from the jar the loop ended with: the starting one if no answer was used, otherwise the one holding the last answer's tokens. |
| Engine.LogOut | bubu_module.py:36-40 | The logout keeps the rest of the result. It succeeds exactly when a logged-in jar's request gets a reply. Its `Cookie` header exists exactly when the jar holds both tokens, and carries their values. |
| Engine.Synchronize | bubu_module.py:150-174 | An unreadable calendar stops the run before any request, without logout. Logout is attempted exactly when the calendar was read and the constructor returned, and succeeds exactly when its request gets a reply. A failing constructor is the run's error. Otherwise the lessons are the week's events that survive `drop_duplicates_events` against the booked events, or its error is the run's. The per-lesson outcomes and the answers used follow the record of Sync.SubmitAll, and an error from the loop is one of the reasons it lists. Every `True` is for a resolvable phone. The logout request carries a `Cookie` header exactly when logout is attempted. |

## Left out

- HTTP transport, URLs, request headers other than `Cookie` and `X-XSRF-TOKEN`, and JSON decoding are not modelled. Each answer of the backend is an input `Reply` that already carries the decoded body, or `NoReply` for a transport failure.
- The headers are recorded for the creation requests (`Cookie` and `X-XSRF-TOKEN`) and for the logout request (`Cookie`). The login, events and catalog requests record only whether their `Cookie` header can be built, which is whether the jar holds both tokens, and not its text.
- `datetime.now()` is not modelled. It is the parameter `today`, and the same `today` serves both its calls (`get_events` and the `started_after` filter). Only its date matters to both.
- Opening and reading the file is not modelled. The model takes the file's text, and the newline handling of text mode is not modelled.
- The csrf token is not scraped from the login page's HTML. The page body is `Some(token)` or `None`, and the token is opaque. The login form payload is not modelled.
- The constant payload fields, the embedded `customer` and `student` objects, and the in-place `customer['phone'] = phone` are opaque to the backend logic and are left out.
- The printing in `run` and its catch-all `except` are not modelled. The error that ended the run is returned instead.
- Engine.Synchronize: a transport failure of the logout request, which escapes `finally`, is reported as `LogoutRaised` rather than as an exception.
- `app.py` (Tkinter front end and worker thread), `bot.py` (Telegram front end) and config loading are not part of this model. They call the same core.
- Ics.ScanPhone: `\d` is taken as the ASCII digits `0`..`9`. Python's Unicode-aware `\d` also matches other decimal digits.
- Ics.ScanStart: the `\d` of `[\dTZ]` is likewise only `0`..`9`, so a DTSTART run holding other Unicode decimal digits ends earlier than in Python.
- Ics.ParseStamp: the fields are read from ASCII digits only. `strptime` also accepts other Unicode decimal digits in them.
- Ics.ParseStamp: accepts only the 16-character `YYYYMMDDTHHMMSSZ` form. `strptime` also accepts shorter texts with one-digit fields, reading `20240304T1234Z` as 12:03:04. The model rejects such a text, and the whole extraction then fails.
- Sync.FormatDate: years are rendered with four digits. The C library's `%Y` may omit the leading zeros of years below 1000.
- Catalog.IndexStudents: customer ids are integers. In the JSON they are whatever the backend sends.
- The code inspects no status code except the one in `add_event`. The model follows the code, so an error page with both cookies counts as a successful request.
- Engine.FetchCatalog: the customers' JSON lacking `data`, or the students' lacking `students`, is a `MalformedBody` error, standing for the `KeyError` the code raises.

=== FILE: catalog.dfy ===
/**
  The per-product indexes that `BubuLearn.__get_customers` and
  `__get_students` build from the decoded responses: customers by their
  first phone number, students by their customer id, the later record
  winning on a repeated key.
*/
module Catalog {
  import opened Wrappers

  datatype Customer = Customer(id: int, phones: seq<string>)
  datatype Student = Student(id: int, customerId: int)

  /** `rs[i]` is the last record whose key is `k`. */
  predicate IsLastWith<R, K(==)>(rs: seq<R>, key: R -> K, k: K, i: int) {
    0 <= i < |rs| && key(rs[i]) == k && forall j :: i < j < |rs| ==> key(rs[j]) != k
  }

  /** `{key(r): r for r in rs}` */
  function IndexBy<R, K(==,!new)>(rs: seq<R>, key: R -> K): (m: map<K, R>)
    ensures m.Keys == set i | 0 <= i < |rs| :: key(rs[i])
    ensures forall k :: k in m ==> exists i :: IsLastWith(rs, key, k, i) && m[k] == rs[i]
  {
    if rs == [] then map[]
    else
      var init := rs[..|rs| - 1];
      var last := rs[|rs| - 1];
      var m := IndexBy(init, key);
      assert forall i :: 0 <= i < |init| ==> init[i] == rs[i];
      assert IsLastWith(rs, key, key(last), |rs| - 1);
      assert forall k :: k in m && k != key(last) ==> exists i :: IsLastWith(rs, key, k, i) && m[k] == rs[i] by {
        forall k | k in m && k != key(last)
          ensures exists i :: IsLastWith(rs, key, k, i) && m[k] == rs[i]
        {
          var i :| IsLastWith(init, key, k, i) && m[k] == init[i];
          assert IsLastWith(rs, key, k, i);
        }
      }
      assert (set i | 0 <= i < |rs| :: key(rs[i])) == m.Keys + {key(last)} by {
        forall x | x in (set i | 0 <= i < |rs| :: key(rs[i]))
          ensures x in m.Keys + {key(last)}
        {
          var i :| 0 <= i < |rs| && key(rs[i]) == x;
          if i < |init| { assert key(init[i]) == x; }
        }
      }
      m[key(last) := last]
  }

  /** `x['phones'][0]['phone']`. The default `""` for a customer without
      phones is never used as a key, because such a customer makes the index
      fail; a first phone that is itself `""` is a key like any other. */
  function FirstPhone(c: Customer): string {
    if |c.phones| > 0 then c.phones[0] else ""
  }

  /** The customer index of one product; `None` where `x['phones'][0]`
      raises `IndexError`. */
  function IndexCustomers(cs: seq<Customer>): (r: Option<map<string, Customer>>)
    ensures r.None? <==> exists i :: 0 <= i < |cs| && cs[i].phones == []
    ensures r.Some? ==> r.value.Keys == set i | 0 <= i < |cs| :: cs[i].phones[0]
    ensures r.Some? ==> forall p :: p in r.value ==>
      exists i :: IsLastWith(cs, FirstPhone, p, i) && r.value[p] == cs[i]
  {
    if exists i :: 0 <= i < |cs| && cs[i].phones == [] then None
    else
      var m := IndexBy(cs, FirstPhone);
      assert (set i | 0 <= i < |cs| :: cs[i].phones[0]) == (set i | 0 <= i < |cs| :: FirstPhone(cs[i]));
      Some(m)
  }

  function CustomerIdOf(s: Student): int {
    s.customerId
  }

  /** The student index of one product. */
  function IndexStudents(ss: seq<Student>): (r: map<int, Student>)
    ensures r.Keys == set i | 0 <= i < |ss| :: ss[i].customerId
    ensures forall id :: id in r ==> r[id].customerId == id
    ensures forall id :: id in r ==> exists i :: IsLastWith(ss, CustomerIdOf, id, i) && r[id] == ss[i]
  {
    var m := IndexBy(ss, CustomerIdOf);
    assert (set i | 0 <= i < |ss| :: ss[i].customerId) == (set i | 0 <= i < |ss| :: CustomerIdOf(ss[i]));
    m
  }
}

=== FILE: civil.dfy ===
/**
  Proleptic Gregorian calendar arithmetic as done by Python's `datetime`:
  dates from 0001-01-01 to 9999-12-31, ordinals counted from 0001-01-01 = 1,
  weekdays with Monday = 0, and additions that raise on leaving the range.
*/
module Civil {
  import opened Wrappers

  const MinYear := 1
  const MaxYear := 9999
  /** Ordinal of 9999-12-31, the last representable day. */
  const MaxOrdinal := 3652059

  datatype Date = Date(year: int, month: int, day: int)
  datatype DateTime = DateTime(date: Date, hour: int, minute: int, second: int)

  const FirstDay := Date(1, 1, 1)
  const LastDay := Date(9999, 12, 31)

  predicate IsLeap(y: int) {
    y % 4 == 0 && (y % 100 != 0 || y % 400 == 0)
  }

  function DaysInMonth(y: int, m: int): int {
    if m == 2 then (if IsLeap(y) then 29 else 28)
    else if m == 4 || m == 6 || m == 9 || m == 11 then 30
    else 31
  }

  predicate ValidDate(d: Date) {
    && MinYear <= d.year <= MaxYear
    && 1 <= d.month <= 12
    && 1 <= d.day <= DaysInMonth(d.year, d.month)
  }

  predicate ValidDateTime(t: DateTime) {
    && ValidDate(t.date)
    && 0 <= t.hour < 24
    && 0 <= t.minute < 60
    && 0 <= t.second < 60
  }

  /** Days in the years before `y`. */
  function DaysBeforeYear(y: int): int
    requires y >= 1
  {
    var p := y - 1;
    365 * p + p / 4 - p / 100 + p / 400
  }

  /** Days in the months of year `y` before month `m`. */
  function DaysBeforeMonth(y: int, m: int): int
    requires 1 <= m <= 12
  {
    var base :=
      if m == 1 then 0 else if m == 2 then 31 else if m == 3 then 59
      else if m == 4 then 90 else if m == 5 then 120 else if m == 6 then 151
      else if m == 7 then 181 else if m == 8 then 212 else if m == 9 then 243
      else if m == 10 then 273 else if m == 11 then 304 else 334;
    base + (if m > 2 && IsLeap(y) then 1 else 0)
  }

  /** Python's `date.toordinal()`. */
  function Ordinal(d: Date): int
    requires ValidDate(d)
  {
    DaysBeforeYear(d.year) + DaysBeforeMonth(d.year, d.month) + d.day
  }

  /** Python's `weekday()` of the day with ordinal `o`: Monday is 0. */
  function WeekdayOf(o: int): int {
    (o + 6) % 7
  }

  function Weekday(d: Date): int
    requires ValidDate(d)
  {
    WeekdayOf(Ordinal(d))
  }

  /** Seconds since the start of 0001-01-01 minus one day: a timeline on which
      every valid date-time has its own point. */
  function Seconds(t: DateTime): int
    requires ValidDateTime(t)
  {
    Ordinal(t.date) * 86400 + t.hour * 3600 + t.minute * 60 + t.second
  }

  lemma MonthStep(y: int, m: int)
    requires 1 <= m < 12
    ensures DaysBeforeMonth(y, m + 1) == DaysBeforeMonth(y, m) + DaysInMonth(y, m)
  {
  }

  /** Moving from `y - 1` to `y` raises each leap-year quotient exactly at its multiples. */
  lemma LeapCountStep(y: int)
    ensures y / 4 - (y - 1) / 4 == (if y % 4 == 0 then 1 else 0)
    ensures y / 100 - (y - 1) / 100 == (if y % 100 == 0 then 1 else 0)
    ensures y / 400 - (y - 1) / 400 == (if y % 400 == 0 then 1 else 0)
  {
  }

  lemma YearStep(y: int)
    requires y >= 1
    ensures DaysBeforeYear(y + 1) == DaysBeforeYear(y) + DaysBeforeMonth(y, 12) + 31
  {
    LeapCountStep(y);
  }

  lemma {:induction false} DaysBeforeYearGrows(a: int, b: int)
    requires 1 <= a <= b
    ensures DaysBeforeYear(a) + 365 * (b - a) <= DaysBeforeYear(b)
    decreases b - a
  {
    if a < b {
      YearStep(a);
      DaysBeforeYearGrows(a + 1, b);
    }
  }

  /** The day of the year runs from 1 on January 1st to the year's length on December 31st. */
  lemma DayOfYearBounds(d: Date)
    requires ValidDate(d)
    ensures 1 <= DaysBeforeMonth(d.year, d.month) + d.day
    ensures DaysBeforeMonth(d.year, d.month) + d.day == 1 <==> d.month == 1 && d.day == 1
    ensures DaysBeforeMonth(d.year, d.month) + d.day <= DaysBeforeMonth(d.year, 12) + 31
    ensures (DaysBeforeMonth(d.year, d.month) + d.day == DaysBeforeMonth(d.year, 12) + 31
             <==> d.month == 12 && d.day == 31)
  {
  }

  /** Every valid date has an ordinal in `[1, MaxOrdinal]`, and only the first
      and last representable days reach the ends. */
  lemma OrdinalBounds(d: Date)
    requires ValidDate(d)
    ensures 1 <= Ordinal(d) <= MaxOrdinal
    ensures Ordinal(d) == 1 <==> d == FirstDay
    ensures Ordinal(d) == MaxOrdinal <==> d == LastDay
  {
    DayOfYearBounds(d);
    if d.year > 1 {
      DaysBeforeYearGrows(1, d.year);
    }
    if d.year < MaxYear {
      YearStep(d.year);
      DaysBeforeYearGrows(d.year + 1, MaxYear);
    }
    assert DaysBeforeYear(MaxYear) + DaysBeforeMonth(MaxYear, 12) + 31 == MaxOrdinal;
  }

  /** Later months of the same year start after the whole of an earlier one. */
  lemma MonthsGrow(y: int, m1: int, m2: int)
    requires 1 <= m1 < m2 <= 12
    ensures DaysBeforeMonth(y, m1) + DaysInMonth(y, m1) <= DaysBeforeMonth(y, m2)
  {
    MonthStep(y, m1);
  }

  /** Ordinals follow the calendar order of dates. */
  lemma OrdinalOrder(a: Date, b: Date)
    requires ValidDate(a) && ValidDate(b)
    requires a.year < b.year || (a.year == b.year && (a.month < b.month || (a.month == b.month && a.day < b.day)))
    ensures Ordinal(a) < Ordinal(b)
  {
    if a.year < b.year {
      DayOfYearBounds(a);
      DayOfYearBounds(b);
      YearStep(a.year);
      DaysBeforeYearGrows(a.year + 1, b.year);
    } else if a.month < b.month {
      MonthsGrow(a.year, a.month, b.month);
    }
  }

  /** Distinct valid dates have distinct ordinals. */
  lemma OrdinalInjective(a: Date, b: Date)
    requires ValidDate(a) && ValidDate(b)
    ensures Ordinal(a) == Ordinal(b) <==> a == b
  {
    if a.year < b.year || (a.year == b.year && (a.month < b.month || (a.month == b.month && a.day < b.day))) {
      OrdinalOrder(a, b);
    } else if b.year < a.year || (a.year == b.year && (b.month < a.month || (a.month == b.month && b.day < a.day))) {
      OrdinalOrder(b, a);
    }
  }

  /** A day count and a time of day are read back from their sum. */
  lemma SplitDay(oa: int, ta: int, ob: int, tb: int)
    requires 0 <= ta < 86400 && 0 <= tb < 86400
    requires oa * 86400 + ta == ob * 86400 + tb
    ensures oa == ob && ta == tb
  {
  }

  /** Hours, minutes and seconds are read back from the seconds of the day. */
  lemma SplitTime(h1: int, m1: int, s1: int, h2: int, m2: int, s2: int)
    requires 0 <= m1 < 60 && 0 <= s1 < 60 && 0 <= m2 < 60 && 0 <= s2 < 60
    requires h1 * 3600 + m1 * 60 + s1 == h2 * 3600 + m2 * 60 + s2
    ensures h1 == h2 && m1 == m2 && s1 == s2
  {
  }

  /** Distinct valid date-times sit at distinct points of the timeline, so a
      `Seconds` equation fixes a date-time completely. */
  lemma SecondsInjective(a: DateTime, b: DateTime)
    requires ValidDateTime(a) && ValidDateTime(b)
    ensures Seconds(a) == Seconds(b) <==> a == b
  {
    if Seconds(a) == Seconds(b) {
      SplitDay(Ordinal(a.date), a.hour * 3600 + a.minute * 60 + a.second,
               Ordinal(b.date), b.hour * 3600 + b.minute * 60 + b.second);
      OrdinalInjective(a.date, b.date);
      SplitTime(a.hour, a.minute, a.second, b.hour, b.minute, b.second);
    }
  }

  /** The day after `d`; `None` where Python raises `OverflowError`. */
  function NextDay(d: Date): (r: Option<Date>)
    requires ValidDate(d)
    ensures r.None? <==> d == LastDay
    ensures r.Some? ==> ValidDate(r.value) && Ordinal(r.value) == Ordinal(d) + 1
  {
    if d.day < DaysInMonth(d.year, d.month) then
      Some(Date(d.year, d.month, d.day + 1))
    else if d.month < 12 then
      MonthStep(d.year, d.month);
      Some(Date(d.year, d.month + 1, 1))
    else if d.year < MaxYear then
      YearStep(d.year);
      Some(Date(d.year + 1, 1, 1))
    else
      None
  }

  /** The day before `d`; `None` where Python raises `OverflowError`. */
  function PrevDay(d: Date): (r: Option<Date>)
    requires ValidDate(d)
    ensures r.None? <==> d == FirstDay
    ensures r.Some? ==> ValidDate(r.value) && Ordinal(r.value) == Ordinal(d) - 1
  {
    if d.day > 1 then
      Some(Date(d.year, d.month, d.day - 1))
    else if d.month > 1 then
      MonthStep(d.year, d.month - 1);
      Some(Date(d.year, d.month - 1, DaysInMonth(d.year, d.month - 1)))
    else if d.year > MinYear then
      YearStep(d.year - 1);
      Some(Date(d.year - 1, 12, 31))
    else
      None
  }

  /** `d - timedelta(days=n)`: defined exactly when the result is not before 0001-01-01. */
  function SubDays(d: Date, n: nat): (r: Option<Date>)
    requires ValidDate(d)
    ensures r.None? <==> Ordinal(d) <= n
    ensures r.Some? ==> ValidDate(r.value) && Ordinal(r.value) == Ordinal(d) - n
    decreases n
  {
    if n == 0 then
      OrdinalBounds(d);
      Some(d)
    else
      match PrevDay(d)
      case None =>
        OrdinalBounds(d);
        None
      case Some(p) => SubDays(p, n - 1)
  }

  /** `t + timedelta(minutes=n)` for less than a day; `None` where Python
      raises `OverflowError`, that is past 9999-12-31 23:59:59. */
  function AddMinutes(t: DateTime, n: int): (r: Option<DateTime>)
    requires ValidDateTime(t) && 0 <= n < 1440
    ensures r.None? <==> t.date == LastDay && t.hour * 60 + t.minute + n >= 1440
    ensures r.Some? ==> ValidDateTime(r.value) && Seconds(r.value) == Seconds(t) + 60 * n
    ensures r.Some? ==> r.value.second == t.second
  {
    var total := t.hour * 60 + t.minute + n;
    if total < 1440 then
      Some(DateTime(t.date, total / 60, total % 60, t.second))
    else
      match NextDay(t.date)
      case None => None
      case Some(d) => Some(DateTime(d, (total - 1440) / 60, (total - 1440) % 60, t.second))
  }
}

=== FILE: engine.dfy ===
/**
  The `BubuLearn` constructor (login, the fetch of existing events and of
  every product's catalog) and the body of `run`: extract, connect,
  deduplicate, submit each lesson, and log out once connected.
*/
module Engine {
  import opened Wrappers
  import opened Civil
  import opened Session
  import opened Catalog
  import opened Sync
  import Ics

  /** The part of `config.json` the core reads. */
  datatype Config = Config(userId: int, productIds: seq<int>)

  /** The decoded answers to the customers and students requests of one product;
      `None` where the JSON lacks `data` or `students`. */
  datatype CatalogReplies = CatalogReplies(customers: Reply<Option<seq<Customer>>>, students: Reply<Option<seq<Student>>>)

  /** Every answer the backend gives during one run, in request order. The
      login page carries the csrf token, `None` when the meta tag is absent. */
  datatype Network = Network(
    page: Reply<Option<string>>,
    form: Reply<()>,
    events: Reply<Option<seq<RemoteEvent>>>,
    catalogs: seq<CatalogReplies>,
    adds: seq<Reply<AddBody>>,
    logout: Reply<()>)

  /** A constructed `BubuLearn`. */
  datatype Connection = Connection(jar: Jar, startedAfter: string, events: seq<RemoteEvent>, dir: Directory)

  /** Both catalog requests of a product get an answer with both cookies and
      the JSON key the code reads, and every customer has a phone. */
  predicate CatalogAnswered(replies: CatalogReplies) {
    && replies.customers.Reply? && HasTokens(replies.customers.cookies) && replies.customers.body.Some?
    && IndexCustomers(replies.customers.body.value).Some?
    && replies.students.Reply? && HasTokens(replies.students.cookies) && replies.students.body.Some?
  }

  /** `idx` holds the two indexes built from the answers `replies`. */
  predicate IndexedFrom(replies: CatalogReplies, idx: ProductIndex) {
    && replies.customers.Reply? && replies.customers.body.Some?
    && IndexCustomers(replies.customers.body.value) == Some(idx.customers)
    && replies.students.Reply? && replies.students.body.Some?
    && idx.students == IndexStudents(replies.students.body.value)
  }

  /** `__get_customers(p)` then `__get_students(p)`. */
  function FetchCatalog(jar: Jar, replies: CatalogReplies): (r: Result<(Jar, ProductIndex), SyncError>)
    ensures r.Ok? <==> HasTokens(jar) && CatalogAnswered(replies)
    ensures r.Ok? ==> HasTokens(r.value.0) && r.value.0.Keys == jar.Keys
    ensures r.Ok? ==> IndexedFrom(replies, r.value.1)
    ensures r.Ok? ==> replies.students.Reply? && TokensFrom(r.value.0, replies.students.cookies)
  {
    var first := Exchange(jar, replies.customers);
    match first.reply
    case Err(e) => Err(Http(e))
    case Ok(res) =>
      if res.body.None? then Err(Http(MalformedBody))
      else
        match IndexCustomers(res.body.value)
        case None => Err(NoPhoneNumber)
        case Some(customers) =>
          var second := Exchange(first.jar, replies.students);
          match second.reply
          case Err(e) => Err(Http(e))
          case Ok(res2) =>
            if res2.body.None? then Err(Http(MalformedBody))
            else Ok((second.jar, ProductIndex(customers, IndexStudents(res2.body.value))))
  }

  /** The constructor's `for p_id in self.product_ids` loop: one pair of
      requests per listed id, in order. The answers come from `catalogs` in
      order; running out of them is a transport failure. */
  function FetchAll(jar: Jar, pids: seq<int>, catalogs: seq<CatalogReplies>): (r: Result<(Jar, seq<ProductIndex>), SyncError>)
    ensures r.Ok? ==> |r.value.1| == |pids| && r.value.0.Keys == jar.Keys
    ensures r.Ok? <==> ((pids == [] || HasTokens(jar)) && |pids| <= |catalogs|
                        && forall i :: 0 <= i < |pids| ==> CatalogAnswered(catalogs[i]))
    ensures r.Ok? ==> forall i :: 0 <= i < |pids| ==> IndexedFrom(catalogs[i], r.value.1[i])
    ensures r.Ok? && pids == [] ==> r.value.0 == jar
    ensures r.Ok? && pids != [] ==>
      catalogs[|pids| - 1].students.Reply? && TokensFrom(r.value.0, catalogs[|pids| - 1].students.cookies)
    decreases |pids|
  {
    if pids == [] then Ok((jar, []))
    else if catalogs == [] then Err(Http(TransportFailure))
    else
      AnsweredShift(catalogs, |pids|);
      match FetchCatalog(jar, catalogs[0])
      case Err(e) => Err(e)
      case Ok((j1, idx)) =>
        match FetchAll(j1, pids[1..], catalogs[1..])
        case Err(e) => Err(e)
        case Ok((j2, rest)) =>
          IndexedShift(catalogs, idx, rest);
          assert |pids| > 1 ==> catalogs[1..][|pids| - 2] == catalogs[|pids| - 1];
          Ok((j2, [idx] + rest))
  }

  /** Answers for the first `n` products are those for the first one and for
      the `n - 1` after it. */
  lemma AnsweredShift(catalogs: seq<CatalogReplies>, n: nat)
    requires 0 < n && 0 < |catalogs|
    ensures (n <= |catalogs| && forall i :: 0 <= i < n ==> CatalogAnswered(catalogs[i])) <==>
            (CatalogAnswered(catalogs[0]) && n - 1 <= |catalogs[1..]|
             && forall i :: 0 <= i < n - 1 ==> CatalogAnswered(catalogs[1..][i]))
  {
    assert forall i :: 1 <= i < |catalogs| ==> catalogs[1..][i - 1] == catalogs[i];
  }

  lemma IndexedShift(catalogs: seq<CatalogReplies>, idx: ProductIndex, rest: seq<ProductIndex>)
    requires 0 < |catalogs| && |rest| <= |catalogs[1..]|
    requires IndexedFrom(catalogs[0], idx)
    requires forall i :: 0 <= i < |rest| ==> IndexedFrom(catalogs[1..][i], rest[i])
    ensures forall i :: 0 <= i < |rest| + 1 ==> IndexedFrom(catalogs[i], ([idx] + rest)[i])
  {
    forall i | 0 <= i < |rest| + 1
      ensures IndexedFrom(catalogs[i], ([idx] + rest)[i])
    {
      if i > 0 {
        assert catalogs[1..][i - 1] == catalogs[i];
        assert ([idx] + rest)[i] == rest[i - 1];
      }
    }
  }

  function ProductOf(e: (int, ProductIndex)): int {
    e.0
  }

  /** `self.customers[p_id] = ...; self.students[p_id] = ...` over the loop:
      every listed id is present, and a repeated id keeps its last fetch. */
  function BuildDirectory(pids: seq<int>, fetched: seq<ProductIndex>): (d: Directory)
    requires |fetched| == |pids|
    ensures Covers(d, pids)
    ensures forall p :: p in d ==> exists i :: IsLastWith(pids, (q: int) => q, p, i) && d[p] == fetched[i]
  {
    var pairs := seq(|pids|, i requires 0 <= i < |pids| => (pids[i], fetched[i]));
    var m := IndexBy(pairs, ProductOf);
    assert forall i :: 0 <= i < |pids| ==> ProductOf(pairs[i]) == pids[i];
    forall p | p in m
      ensures exists i :: IsLastWith(pids, (q: int) => q, p, i) && m[p].1 == fetched[i]
    {
      var i :| IsLastWith(pairs, ProductOf, p, i) && m[p] == pairs[i];
      assert IsLastWith(pids, (q: int) => q, p, i);
    }
    map p | p in m :: m[p].1
  }

  /** Each directory entry holds the indexes built from the answers to the
      last request for its product. */
  lemma DirectoryFromCatalogs(pids: seq<int>, fetched: seq<ProductIndex>, catalogs: seq<CatalogReplies>)
    requires |fetched| == |pids| <= |catalogs|
    requires forall i :: 0 <= i < |pids| ==> IndexedFrom(catalogs[i], fetched[i])
    ensures var dir := BuildDirectory(pids, fetched);
            forall p :: p in dir ==> exists i :: IsLastWith(pids, (q: int) => q, p, i) && IndexedFrom(catalogs[i], dir[p])
  {
    var dir := BuildDirectory(pids, fetched);
    forall p | p in dir
      ensures exists i :: IsLastWith(pids, (q: int) => q, p, i) && IndexedFrom(catalogs[i], dir[p])
    {
      var i :| IsLastWith(pids, (q: int) => q, p, i) && dir[p] == fetched[i];
      assert IndexedFrom(catalogs[i], fetched[i]);
    }
  }

  /** `BubuLearn(config)`: login, then the events starting from 00:00 of the
      day two weeks before `today`, then every product's catalog. */
  function Connect(cfg: Config, today: Date, net: Network): (r: Result<Connection, SyncError>)
    requires ValidDate(today)
    ensures r.Ok? ==> Covers(r.value.dir, cfg.productIds)
    ensures r.Ok? ==> r.value.jar.Keys == {XsrfCookie, SessionCookie}
    ensures r.Ok? ==> exists d :: ValidDate(d) && Ordinal(d) == Ordinal(today) - 14
                                  && r.value.startedAfter == FormatDate(d) + "T00:00:00"
    ensures Ordinal(today) <= 14 ==> r.Err?
    ensures r.Ok? ==> net.events.Reply? && net.events.body.Some? && r.value.events == net.events.body.value
    ensures r.Ok? ==> |cfg.productIds| <= |net.catalogs|
    ensures r.Ok? ==> forall p :: p in r.value.dir ==>
      exists i :: IsLastWith(cfg.productIds, (q: int) => q, p, i) && IndexedFrom(net.catalogs[i], r.value.dir[p])
    ensures r.Ok? <==> && Login(net.page, net.form).Ok? && Ordinal(today) > 14
                       && net.events.Reply? && HasTokens(net.events.cookies) && net.events.body.Some?
                       && |cfg.productIds| <= |net.catalogs|
                       && forall i :: 0 <= i < |cfg.productIds| ==> CatalogAnswered(net.catalogs[i])
    ensures r.Ok? && cfg.productIds == [] ==> TokensFrom(r.value.jar, net.events.cookies)
    ensures r.Ok? && cfg.productIds != [] ==>
      var last := net.catalogs[|cfg.productIds| - 1].students;
      last.Reply? && TokensFrom(r.value.jar, last.cookies)
  {
    match Login(net.page, net.form)
    case Err(e) => Err(Http(e))
    case Ok(jar) =>
      match SubDays(today, 14)
      case None => Err(TimeOverflow)
      case Some(since) =>
        var startedAfter := FormatDate(since) + "T00:00:00";
        assert ValidDate(since) && Ordinal(since) == Ordinal(today) - 14;
        var step := Exchange(jar, net.events);
        match step.reply
        case Err(e) => Err(Http(e))
        case Ok(res) =>
          if res.body.None? then Err(Http(MalformedBody))
          else
            match FetchAll(step.jar, cfg.productIds, net.catalogs)
            case Err(e) => Err(e)
            case Ok((j, fetched)) =>
              DirectoryFromCatalogs(cfg.productIds, fetched, net.catalogs);
              Ok(Connection(j, startedAfter, res.body.value, BuildDirectory(cfg.productIds, fetched)))
  }

  datatype LogoutStatus = NotAttempted | LoggedOut | LogoutRaised

  datatype RunError = CalendarError(ics: Ics.IcsError) | BackendError(sync: SyncError)

  /** The lessons that went to submission, one boolean per lesson handled,
      for each of those the creation answer its request used (if one was
      sent), the error that ended the run early, what became of the logout,
      and the `Cookie` header of the logout request when one was built. */
  datatype RunResult = RunResult(lessons: seq<Ics.Candidate>, outcomes: seq<bool>, sentAt: seq<Option<nat>>,
                                 error: Option<RunError>, logout: LogoutStatus, logoutCookie: Option<string>)

  /** The calendar part of `run` succeeds. */
  predicate CalendarReadable(text: string, today: Date, isCurrentWeek: bool)
    requires ValidDate(today)
  {
    Ics.ExtractAll(Ics.Blocks(text)).Ok? && Ics.WindowFits(Ordinal(today), isCurrentWeek)
  }

  /** The body of `run`: the calendar is read before any request, logout is
      attempted exactly when the constructor returned (so `bl` is set), and a
      lesson that cannot be added does not stop the loop. */
  method Synchronize(cfg: Config, text: string, today: Date, isCurrentWeek: bool, net: Network)
    returns (res: RunResult)
    requires ValidDate(today)
    ensures !CalendarReadable(text, today, isCurrentWeek) ==>
      res.lessons == [] && res.outcomes == [] && res.logout == NotAttempted && res.error.Some? && res.error.value.CalendarError?
    ensures res.logout != NotAttempted <==> CalendarReadable(text, today, isCurrentWeek) && Connect(cfg, today, net).Ok?
    ensures res.error.None? ==> |res.outcomes| == |res.lessons| && res.logout != NotAttempted
    ensures |res.outcomes| <= |res.lessons|
    ensures res.logout != NotAttempted ==>
      forall i :: 0 <= i < |res.outcomes| && res.outcomes[i] ==>
        Addable(Connect(cfg, today, net).value.dir, cfg.productIds, res.lessons[i].phone)
    ensures CalendarReadable(text, today, isCurrentWeek) && Connect(cfg, today, net).Err? ==>
      res.error == Some(BackendError(Connect(cfg, today, net).error))
    ensures CalendarReadable(text, today, isCurrentWeek) && Connect(cfg, today, net).Ok? ==>
      var week := Ics.InWeek(Ics.ExtractAll(Ics.Blocks(text)).value, Ordinal(today), isCurrentWeek);
      var unseen := DropDuplicates(week, Connect(cfg, today, net).value.events);
      (unseen.Ok? ==> res.lessons == unseen.value) && (unseen.Err? ==> res.error == Some(BackendError(unseen.error)))
    ensures res.logout == LoggedOut <==> res.logout != NotAttempted && net.logout.Reply?
    ensures res.logoutCookie.Some? <==> res.logout != NotAttempted
    ensures forall i :: 0 <= i < |res.lessons| ==> ValidDateTime(res.lessons[i].date)
    ensures CalendarReadable(text, today, isCurrentWeek) && Connect(cfg, today, net).Ok? ==>
      var conn := Connect(cfg, today, net).value;
      var week := Ics.InWeek(Ics.ExtractAll(Ics.Blocks(text)).value, Ordinal(today), isCurrentWeek);
      && Accounts(conn.dir, cfg.productIds, res.lessons, net.adds, res.outcomes, res.sentAt)
      && (DropDuplicates(week, conn.events).Ok? ==>
            && (res.error.None? || res.error.value.BackendError?)
            && Stopped(conn.jar, conn.dir, cfg.productIds, res.lessons, net.adds, res.outcomes, res.sentAt,
                       if res.error.None? then None else Some(res.error.value.sync)))
  {
    var read := Ics.GetEvents(text, today, isCurrentWeek);
    if read.Err? {
      return RunResult([], [], [], Some(CalendarError(read.error)), NotAttempted, None);
    }
    var lessons := read.value;
    var connected := Connect(cfg, today, net);
    if connected.Err? {
      return RunResult([], [], [], Some(BackendError(connected.error)), NotAttempted, None);
    }
    res := Finish(cfg, connected.value, lessons, net);
  }

  /** The part of `run` after the constructor returned: deduplication, the
      loop over the lessons, and the logout of the `finally` clause, which
      runs whether or not something raised. */
  method Finish(cfg: Config, conn: Connection, lessons: seq<Ics.Candidate>, net: Network) returns (res: RunResult)
    requires Covers(conn.dir, cfg.productIds) && HasTokens(conn.jar)
    requires forall i :: 0 <= i < |lessons| ==> ValidDateTime(lessons[i].date)
    ensures res.logout != NotAttempted
    ensures res.logout == LoggedOut <==> net.logout.Reply?
    ensures forall i :: 0 <= i < |res.lessons| ==> ValidDateTime(res.lessons[i].date)
    ensures |res.outcomes| <= |res.lessons|
    ensures res.error.None? ==> |res.outcomes| == |res.lessons|
    ensures forall i :: 0 <= i < |res.outcomes| && res.outcomes[i] ==> Addable(conn.dir, cfg.productIds, res.lessons[i].phone)
    ensures Accounts(conn.dir, cfg.productIds, res.lessons, net.adds, res.outcomes, res.sentAt)
    ensures DropDuplicates(lessons, conn.events).Err? ==>
      res.lessons == [] && res.error == Some(BackendError(DropDuplicates(lessons, conn.events).error))
    ensures DropDuplicates(lessons, conn.events).Ok? ==>
      && res.lessons == DropDuplicates(lessons, conn.events).value
      && (res.error.None? || res.error.value.BackendError?)
      && Stopped(conn.jar, conn.dir, cfg.productIds, res.lessons, net.adds, res.outcomes, res.sentAt,
                 if res.error.None? then None else Some(res.error.value.sync))
    ensures res.logoutCookie.Some?
    ensures DropDuplicates(lessons, conn.events).Err? ==> res.logoutCookie == CookieHeader(conn.jar)
    ensures DropDuplicates(lessons, conn.events).Ok? && res.error.None? && SentCount(res.sentAt) == 0 ==>
      res.logoutCookie == CookieHeader(conn.jar)
    ensures DropDuplicates(lessons, conn.events).Ok? && res.error.None? && SentCount(res.sentAt) > 0 ==>
      SentCount(res.sentAt) <= |net.adds| && net.adds[SentCount(res.sentAt) - 1].Reply?
      && res.logoutCookie == CookieHeader(net.adds[SentCount(res.sentAt) - 1].cookies)
  {
    var unseen := DropDuplicates(lessons, conn.events);
    if unseen.Err? {
      res := LogOut(RunResult([], [], [], Some(BackendError(unseen.error)), NotAttempted, None), conn.jar, net.logout);
    } else {
      var todo := unseen.value;
      res := Submission(cfg, conn, todo, net);
    }
  }

  /** `Finish` once deduplication succeeded with `todo`: the loop over the
      lessons, then the logout with the jar the loop ended with. */
  method Submission(cfg: Config, conn: Connection, todo: seq<Ics.Candidate>, net: Network) returns (res: RunResult)
    requires Covers(conn.dir, cfg.productIds) && HasTokens(conn.jar)
    requires forall i :: 0 <= i < |todo| ==> ValidDateTime(todo[i].date)
    ensures res.lessons == todo
    ensures res.logout != NotAttempted
    ensures res.logout == LoggedOut <==> net.logout.Reply?
    ensures |res.outcomes| <= |res.lessons|
    ensures res.error.None? ==> |res.outcomes| == |res.lessons|
    ensures forall i :: 0 <= i < |res.outcomes| && res.outcomes[i] ==> Addable(conn.dir, cfg.productIds, res.lessons[i].phone)
    ensures Accounts(conn.dir, cfg.productIds, res.lessons, net.adds, res.outcomes, res.sentAt)
    ensures res.error.None? || res.error.value.BackendError?
    ensures Stopped(conn.jar, conn.dir, cfg.productIds, res.lessons, net.adds, res.outcomes, res.sentAt,
                    if res.error.None? then None else Some(res.error.value.sync))
    ensures res.logoutCookie.Some?
    ensures res.error.None? && SentCount(res.sentAt) == 0 ==> res.logoutCookie == CookieHeader(conn.jar)
    ensures res.error.None? && SentCount(res.sentAt) > 0 ==>
      SentCount(res.sentAt) <= |net.adds| && net.adds[SentCount(res.sentAt) - 1].Reply?
      && res.logoutCookie == CookieHeader(net.adds[SentCount(res.sentAt) - 1].cookies)
  {
    var batch := SubmitAll(conn.jar, cfg.userId, conn.dir, cfg.productIds, todo, net.adds);
    var error := if batch.fatal.Some? then Some(BackendError(batch.fatal.value)) else None;
    res := LogOut(RunResult(todo, batch.outcomes, batch.sentAt, error, NotAttempted, None), batch.jar, net.logout);
  }

  /** The `finally` clause of `run`: logout with the jar the run ended with,
      whose `Cookie` header the request carries; the rest of the result is
      kept. */
  method LogOut(res: RunResult, jar: Jar, reply: Reply<()>) returns (r: RunResult)
    ensures r.lessons == res.lessons && r.outcomes == res.outcomes && r.sentAt == res.sentAt && r.error == res.error
    ensures r.logout != NotAttempted
    ensures r.logout == LoggedOut <==> HasTokens(jar) && reply.Reply?
    ensures r.logoutCookie == CookieHeader(jar)
    ensures r.logoutCookie.Some? <==> HasTokens(jar)
    ensures r.logoutCookie.Some? ==> r.logoutCookie.value == "XSRF-TOKEN=" + jar[XsrfCookie] + "; crm_session=" + jar[SessionCookie]
  {
    var out := Logout(jar, reply);
    r := res.(logout := if out.Ok? then LoggedOut else LogoutRaised, logoutCookie := CookieHeader(jar));
  }
}

=== FILE: ics.dfy ===
/**
  `ICSParser.get_events`: the calendar text is cut at every `BEGIN:VEVENT`
  marker, each block yields a phone (from the `SUMMARY` property) and a start
  time (from a UTC `DTSTART` property, shifted by a fixed three hours), and
  the candidates are kept when their day lies in a Monday-to-Monday week.
  The two regular expressions of the source are written as scanners and
  specified by what a match of the expression is.
*/
module Ics {
  import opened Wrappers
  import opened Civil
  import opened Text
  import Seqs

  const EventMarker := "BEGIN:VEVENT"
  const SummaryTag := "SUMMARY:"
  const StartTag := "DTSTART:"
  /** The fixed local offset added to every UTC start, in minutes. */
  const LocalOffsetMinutes := 180

  /** A lesson read from the calendar: the phone and the local start. */
  datatype Candidate = Candidate(phone: string, date: DateTime)

  datatype IcsError = NoPhone | NoStart | BadTimestamp | DateOverflow

  // ---------------------------------------------------------------------
  // The phone: `SUMMARY:[^\d]+(\+[\d ]+)`

  predicate IsPhoneChar(c: char) {
    IsDigit(c) || c == ' '
  }

  /** A match of the phone expression whose tag starts at `p` and whose group
      is `s[j..k]`; the group is maximal, as the greedy `[\d ]+` makes it. */
  predicate IsPhoneMatch(s: string, p: int, j: int, k: int) {
    && OccursAt(s, SummaryTag, p)
    && p + |SummaryTag| < j < k <= |s|
    && (forall i :: p + |SummaryTag| <= i < j ==> !IsDigit(s[i]))
    && s[j] == '+'
    && j + 1 < k
    && (forall i :: j < i < k ==> IsPhoneChar(s[i]))
    && (k == |s| || !IsPhoneChar(s[k]))
  }

  /** The end of the run of non-digits starting at `i`. */
  function NonDigitEnd(s: string, i: int): (e: int)
    requires 0 <= i <= |s|
    ensures i <= e <= |s|
    ensures forall x :: i <= x < e ==> !IsDigit(s[x])
    ensures e == |s| || IsDigit(s[e])
    decreases |s| - i
  {
    if i == |s| || IsDigit(s[i]) then i else NonDigitEnd(s, i + 1)
  }

  /** The run of non-digits reaches past any `j` whose prefix from `i` has no digit. */
  lemma {:induction false} NonDigitEndCovers(s: string, i: int, j: int)
    requires 0 <= i <= j < |s|
    requires forall x :: i <= x <= j ==> !IsDigit(s[x])
    ensures j < NonDigitEnd(s, i)
    decreases j - i
  {
    if i < j {
      NonDigitEndCovers(s, i + 1, j);
    }
  }

  /** The end of the run of digits and spaces starting at `i`. */
  function PhoneRunEnd(s: string, i: int): (e: int)
    requires 0 <= i <= |s|
    ensures i <= e <= |s|
    ensures forall x :: i <= x < e ==> IsPhoneChar(s[x])
    ensures e == |s| || !IsPhoneChar(s[e])
    decreases |s| - i
  {
    if i == |s| || !IsPhoneChar(s[i]) then i else PhoneRunEnd(s, i + 1)
  }

  /** A `+` at `j` that can open the group. */
  predicate PlusAt(s: string, j: int) {
    0 <= j && j + 1 < |s| && s[j] == '+' && IsPhoneChar(s[j + 1])
  }

  /** The last `j` in `[lo, hi)` with `PlusAt(s, j)`: greedy backtracking
      of `[^\d]+` tries the longest prefix first. */
  function LastPlus(s: string, lo: int, hi: int): (r: Option<int>)
    requires 0 <= lo && hi <= |s|
    ensures r.Some? ==> lo <= r.value < hi && PlusAt(s, r.value)
    ensures r.Some? ==> forall j :: r.value < j < hi ==> !PlusAt(s, j)
    ensures r.None? ==> forall j :: lo <= j < hi ==> !PlusAt(s, j)
    decreases hi - lo
  {
    if hi <= lo then None
    else if PlusAt(s, hi - 1) then Some(hi - 1)
    else LastPlus(s, lo, hi - 1)
  }

  /** The group `(j, k)` of the match whose tag is at `p`, if any: the one
      with the largest `j`, which is the one the regular expression reports. */
  function PhoneAt(s: string, p: int): (r: Option<(int, int)>)
    requires OccursAt(s, SummaryTag, p)
    ensures r.Some? ==> IsPhoneMatch(s, p, r.value.0, r.value.1)
    ensures r.Some? ==> forall j, k :: IsPhoneMatch(s, p, j, k) ==> j <= r.value.0
    ensures r.None? ==> forall j, k :: !IsPhoneMatch(s, p, j, k)
  {
    var q := p + |SummaryTag|;
    var e := NonDigitEnd(s, q);
    assert forall j, k :: IsPhoneMatch(s, p, j, k) ==> q + 1 <= j < e && PlusAt(s, j) by {
      forall j, k | IsPhoneMatch(s, p, j, k)
        ensures q + 1 <= j < e && PlusAt(s, j)
      {
        NonDigitEndCovers(s, q, j);
      }
    }
    match LastPlus(s, q + 1, e)
    case None => None
    case Some(j) => Some((j, PhoneRunEnd(s, j + 1)))
  }

  /** Leftmost tag position at or after `from` with a phone match. */
  function FindPhone(s: string, from: nat): (r: Option<(int, int, int)>)
    ensures r.Some? ==> from <= r.value.0 && IsPhoneMatch(s, r.value.0, r.value.1, r.value.2)
    ensures r.Some? ==> forall p, j, k :: from <= p < r.value.0 ==> !IsPhoneMatch(s, p, j, k)
    ensures r.Some? ==> forall j, k :: IsPhoneMatch(s, r.value.0, j, k) ==> j <= r.value.1
    ensures r.None? ==> forall p, j, k :: from <= p ==> !IsPhoneMatch(s, p, j, k)
    decreases |s| - from
  {
    if from + |SummaryTag| > |s| then None
    else if OccursAt(s, SummaryTag, from) && PhoneAt(s, from).Some? then
      var g := PhoneAt(s, from).value;
      Some((from, g.0, g.1))
    else
      FindPhone(s, from + 1)
  }

  /** `s.replace(" ", "")` */
  function StripSpaces(s: string): (r: string)
    ensures forall i :: 0 <= i < |r| ==> r[i] != ' '
    ensures forall c :: c != ' ' ==> multiset(r)[c] == multiset(s)[c]
    ensures Seqs.IsSubsequence(r, s)
  {
    if s == [] then []
    else
      assert s == [s[0]] + s[1..];
      var rest := StripSpaces(s[1..]);
      if s[0] == ' ' then
        assert rest != [] ==> rest[0] != s[0];
        rest
      else
        assert ([s[0]] + rest)[1..] == rest;
        [s[0]] + rest
  }

  /** Removing the spaces from a run of digits and spaces leaves only digits. */
  lemma StripPhoneRun(g: string)
    requires forall i :: 0 <= i < |g| ==> IsPhoneChar(g[i])
    ensures AllDigits(StripSpaces(g))
  {
    var r := StripSpaces(g);
    forall i | 0 <= i < |r|
      ensures IsDigit(r[i])
    {
      assert multiset(r)[r[i]] > 0;
      assert r[i] in g;
    }
  }

  /** `re.search('SUMMARY:[^\d]+(\+[\d ]+)', b).group(1).replace(" ", "")`,
      `None` where the search finds nothing. */
  function ScanPhone(b: string): (r: Option<string>)
    ensures r.None? <==> forall p, j, k :: !IsPhoneMatch(b, p, j, k)
    ensures r.Some? ==> |r.value| >= 1 && r.value[0] == '+' && AllDigits(r.value[1..])
    ensures r.Some? ==>
      exists p, j, k :: (IsPhoneMatch(b, p, j, k)
                         && (forall p', j', k' :: IsPhoneMatch(b, p', j', k') ==> p <= p' && (p' == p ==> j' <= j))
                         && r.value == StripSpaces(b[j..k]))
  {
    match FindPhone(b, 0)
    case None => None
    case Some((p, j, k)) =>
      var g := b[j + 1..k];
      assert b[j..k] == ['+'] + g;
      StripPhoneRun(g);
      assert (['+'] + g)[1..] == g;
      assert forall p', j', k' :: IsPhoneMatch(b, p', j', k') ==> p <= p' && (p' == p ==> j' <= j);
      Some(StripSpaces(b[j..k]))
  }

  // ---------------------------------------------------------------------
  // The start: `DTSTART:([\dTZ]+)\n`

  predicate IsStampChar(c: char) {
    IsDigit(c) || c == 'T' || c == 'Z'
  }

  /** A match of the start expression whose tag is at `p` and whose group is
      `s[p + 8..k]`. A shorter group would be followed by a stamp character
      rather than a newline, so at most one `k` fits a given `p`. */
  predicate IsStartMatch(s: string, p: int, k: int) {
    && OccursAt(s, StartTag, p)
    && p + |StartTag| < k < |s|
    && (forall i :: p + |StartTag| <= i < k ==> IsStampChar(s[i]))
    && s[k] == '\n'
  }

  function StampRunEnd(s: string, i: int): (e: int)
    requires 0 <= i <= |s|
    ensures i <= e <= |s|
    ensures forall x :: i <= x < e ==> IsStampChar(s[x])
    ensures e == |s| || !IsStampChar(s[e])
    decreases |s| - i
  {
    if i == |s| || !IsStampChar(s[i]) then i else StampRunEnd(s, i + 1)
  }

  /** Leftmost tag position at or after `from` with a start match. */
  function FindStart(s: string, from: nat): (r: Option<(int, int)>)
    ensures r.Some? ==> from <= r.value.0 && IsStartMatch(s, r.value.0, r.value.1)
    ensures r.Some? ==> forall p, k :: from <= p < r.value.0 ==> !IsStartMatch(s, p, k)
    ensures r.None? ==> forall p, k :: from <= p ==> !IsStartMatch(s, p, k)
    decreases |s| - from
  {
    if from + |StartTag| > |s| then None
    else
      var e := StampRunEnd(s, from + |StartTag|);
      assert forall k :: IsStartMatch(s, from, k) ==> k == e by {
        forall k | IsStartMatch(s, from, k)
          ensures k == e
        {
          assert !IsStampChar(s[k]);
          assert e == |s| || !IsStampChar(s[e]);
        }
      }
      if OccursAt(s, StartTag, from) && from + |StartTag| < e < |s| && s[e] == '\n' then
        Some((from, e))
      else
        FindStart(s, from + 1)
  }

  /** `re.search('DTSTART:([\dTZ]+)\n', b).group(1)`, `None` where the search
      finds nothing. */
  function ScanStart(b: string): (r: Option<string>)
    ensures r.None? <==> forall p, k :: !IsStartMatch(b, p, k)
    ensures r.Some? ==> |r.value| >= 1 && forall i :: 0 <= i < |r.value| ==> IsStampChar(r.value[i])
    ensures r.Some? ==>
      exists p, k :: (IsStartMatch(b, p, k)
                      && (forall p', k' :: IsStartMatch(b, p', k') ==> p <= p')
                      && r.value == b[p + |StartTag|..k])
  {
    match FindStart(b, 0)
    case None => None
    case Some((p, k)) => Some(b[p + |StartTag|..k])
  }

  // ---------------------------------------------------------------------
  // `datetime.strptime(g, '%Y%m%dT%H%M%SZ')`

  /** The canonical UTC form `YYYYMMDDTHHMMSSZ` of a date-time. */
  function FormatStamp(t: DateTime): string
    requires ValidDateTime(t)
  {
    Pad(t.date.year, 4) + Pad(t.date.month, 2) + Pad(t.date.day, 2) + "T"
    + Pad(t.hour, 2) + Pad(t.minute, 2) + Pad(t.second, 2) + "Z"
  }

  /** `g[lo..hi]` holds only decimal digits. */
  predicate DigitsIn(g: string, lo: int, hi: int)
    requires 0 <= lo <= hi <= |g|
  {
    forall i :: lo <= i < hi ==> IsDigit(g[i])
  }

  /** The value of the decimal field `g[lo..hi]`. */
  function Field(g: string, lo: int, hi: int): nat
    requires 0 <= lo <= hi <= |g| && DigitsIn(g, lo, hi)
  {
    assert forall i :: 0 <= i < hi - lo ==> g[lo..hi][i] == g[lo + i];
    DigitsValue(g[lo..hi])
  }

  function ParseStamp(g: string): (r: Result<DateTime, IcsError>)
    ensures r.Ok? ==> ValidDateTime(r.value)
  {
    if |g| == 16 && g[8] == 'T' && g[15] == 'Z' && DigitsIn(g, 0, 8) && DigitsIn(g, 9, 15) then
      var t := DateTime(
        Date(Field(g, 0, 4), Field(g, 4, 6), Field(g, 6, 8)),
        Field(g, 9, 11), Field(g, 11, 13), Field(g, 13, 15));
      if ValidDateTime(t) then Ok(t) else Err(BadTimestamp)
    else
      Err(BadTimestamp)
  }

  /** Every valid date-time is read back from its canonical form. */
  lemma StampRoundTrip(t: DateTime)
    requires ValidDateTime(t)
    ensures ParseStamp(FormatStamp(t)) == Ok(t)
  {
    var g := FormatStamp(t);
    assert g[0..4] == Pad(t.date.year, 4);
    assert g[4..6] == Pad(t.date.month, 2);
    assert g[6..8] == Pad(t.date.day, 2);
    assert g[9..11] == Pad(t.hour, 2);
    assert g[11..13] == Pad(t.minute, 2);
    assert g[13..15] == Pad(t.second, 2);
    PadRoundTrip(t.date.year, 4);
    PadRoundTrip(t.date.month, 2);
    PadRoundTrip(t.date.day, 2);
    PadRoundTrip(t.hour, 2);
    PadRoundTrip(t.minute, 2);
    PadRoundTrip(t.second, 2);
    assert DigitsIn(g, 0, 8) by {
      forall i | 0 <= i < 8
        ensures IsDigit(g[i])
      {
        if i < 4 { assert g[i] == g[0..4][i]; }
        else if i < 6 { assert g[i] == g[4..6][i - 4]; }
        else { assert g[i] == g[6..8][i - 6]; }
      }
    }
    assert DigitsIn(g, 9, 15) by {
      forall i | 9 <= i < 15
        ensures IsDigit(g[i])
      {
        if i < 11 { assert g[i] == g[9..11][i - 9]; }
        else if i < 13 { assert g[i] == g[11..13][i - 11]; }
        else { assert g[i] == g[13..15][i - 13]; }
      }
    }
  }

  lemma FieldRoundTrip(g: string, lo: int, hi: int)
    requires 0 <= lo <= hi <= |g|
    requires forall i :: lo <= i < hi ==> IsDigit(g[i])
    ensures Pad(Field(g, lo, hi), hi - lo) == g[lo..hi]
  {
    assert forall i :: 0 <= i < hi - lo ==> g[lo..hi][i] == g[lo + i];
    DigitsRoundTrip(g[lo..hi]);
  }

  /** The only strings accepted are canonical forms. */
  lemma StampCanonical(g: string)
    requires ParseStamp(g).Ok?
    ensures FormatStamp(ParseStamp(g).value) == g
  {
    var t := ParseStamp(g).value;
    assert t.date.year == Field(g, 0, 4) && t.date.month == Field(g, 4, 6) && t.date.day == Field(g, 6, 8);
    assert t.hour == Field(g, 9, 11) && t.minute == Field(g, 11, 13) && t.second == Field(g, 13, 15);
    FieldRoundTrip(g, 0, 4);
    FieldRoundTrip(g, 4, 6);
    FieldRoundTrip(g, 6, 8);
    FieldRoundTrip(g, 9, 11);
    FieldRoundTrip(g, 11, 13);
    FieldRoundTrip(g, 13, 15);
    assert g[0..4] + g[4..6] == g[0..6];
    assert g[0..6] + g[6..8] == g[0..8];
    assert g[0..8] + "T" == g[0..9];
    assert g[0..9] + g[9..11] == g[0..11];
    assert g[0..11] + g[11..13] == g[0..13];
    assert g[0..13] + g[13..15] == g[0..15];
    assert g[0..15] + "Z" == g;
  }

  /** A text the parser rejects renders no valid date-time. */
  lemma StampRejected(g: string)
    requires ParseStamp(g).Err?
    ensures forall u :: ValidDateTime(u) ==> g != FormatStamp(u)
  {
    forall u | ValidDateTime(u)
      ensures g != FormatStamp(u)
    {
      StampRoundTrip(u);
    }
  }

  /** A text the parser accepts renders exactly the date-time it reads. */
  lemma StampUnique(g: string, t: DateTime)
    requires ParseStamp(g) == Ok(t)
    ensures ValidDateTime(t) && g == FormatStamp(t)
    ensures forall u :: ValidDateTime(u) && g == FormatStamp(u) ==> u == t
  {
    StampCanonical(g);
    forall u | ValidDateTime(u) && g == FormatStamp(u)
      ensures u == t
    {
      StampRoundTrip(u);
    }
  }

  // ---------------------------------------------------------------------
  // One event block

  /** The dictionary built per block: the phone is looked up first, then the
      start, then the start is read and moved to local time. */
  function ParseBlock(b: string): (r: Result<Candidate, IcsError>)
    ensures r == Err(NoPhone) <==> ScanPhone(b).None?
    ensures r == Err(NoStart) <==> ScanPhone(b).Some? && ScanStart(b).None?
    ensures r == Err(BadTimestamp) <==>
      (ScanPhone(b).Some? && ScanStart(b).Some? && forall u :: ValidDateTime(u) ==> ScanStart(b) != Some(FormatStamp(u)))
    ensures r.Ok? ==> r.value.phone == ScanPhone(b).value && ValidDateTime(r.value.date)
    ensures r.Ok? ==> exists u :: ValidDateTime(u) && ScanStart(b) == Some(FormatStamp(u))
                                  && Seconds(r.value.date) == Seconds(u) + 60 * LocalOffsetMinutes
    ensures r.Ok? <==> ScanPhone(b).Some? && exists u :: (ValidDateTime(u) && ScanStart(b) == Some(FormatStamp(u))
                                                          && AddMinutes(u, LocalOffsetMinutes).Some?)
    ensures r == Err(DateOverflow) <==>
      (ScanPhone(b).Some? && exists u :: ValidDateTime(u) && ScanStart(b) == Some(FormatStamp(u)) && AddMinutes(u, LocalOffsetMinutes).None?)
  {
    match ScanPhone(b)
    case None => Err(NoPhone)
    case Some(phone) =>
      match ScanStart(b)
      case None => Err(NoStart)
      case Some(g) =>
        match ParseStamp(g)
        case Err(_) =>
          StampRejected(g);
          Err(BadTimestamp)
        case Ok(utc) =>
          StampUnique(g, utc);
          match AddMinutes(utc, LocalOffsetMinutes)
          case None => Err(DateOverflow)
          case Some(local) =>
            Ok(Candidate(phone, local))
  }

  /** `file.read().split('BEGIN:VEVENT')[1:]` */
  function Blocks(text: string): seq<string> {
    Split(text, EventMarker)[1..]
  }

  /** The blocks are exactly the pieces between markers: text before the first
      marker is dropped, no block holds a marker, and a text without any
      marker has no block. */
  lemma BlocksCoverText(text: string)
    ensures Join([Split(text, EventMarker)[0]] + Blocks(text), EventMarker) == text
    ensures forall i :: 0 <= i < |Blocks(text)| ==> !Contains(Blocks(text)[i], EventMarker)
    ensures Blocks(text) == [] <==> !Contains(text, EventMarker)
  {
    var parts := Split(text, EventMarker);
    assert [parts[0]] + parts[1..] == parts;
    SplitJoin(text, EventMarker);
    SplitPiecesFree(text, EventMarker);
    assert forall i :: 0 <= i < |Blocks(text)| ==> Blocks(text)[i] == parts[i + 1];
  }

  /** `list(map(lambda x: {...}, blocks))`: the first block that raises
      aborts the whole extraction. */
  function ExtractAll(blocks: seq<string>): (r: Result<seq<Candidate>, IcsError>)
    ensures r.Ok? <==> forall i :: 0 <= i < |blocks| ==> ParseBlock(blocks[i]).Ok?
    ensures r.Ok? ==> |r.value| == |blocks|
    ensures r.Ok? ==> forall i :: 0 <= i < |blocks| ==> r.value[i] == ParseBlock(blocks[i]).value
    ensures r.Err? ==> exists i :: 0 <= i < |blocks| && ParseBlock(blocks[i]) == Err(r.error)
                                   && forall j :: 0 <= j < i ==> ParseBlock(blocks[j]).Ok?
  {
    Seqs.MapAll(ParseBlock, blocks)
  }

  // ---------------------------------------------------------------------
  // The week window

  /** Days `[lo, hi)` as ordinals. */
  datatype Window = Window(lo: int, hi: int)

  /** The Monday of the week holding the day with ordinal `t`. */
  function ThisMonday(t: int): int {
    t - WeekdayOf(t)
  }

  /** `ThisMonday` is the one Monday at most six days before `t`. */
  lemma MondayUnique(t: int, m: int)
    ensures (WeekdayOf(m) == 0 && m <= t < m + 7) <==> m == ThisMonday(t)
  {
  }

  /** The window the source builds, as closed arithmetic: this week, or the
      week before. */
  function SpecWindow(t: int, isCurrentWeek: bool): Window {
    var m := ThisMonday(t) - (if isCurrentWeek then 0 else 7);
    Window(m, m + 7)
  }

  /** Whether every date the source computes for the window exists. */
  predicate WindowFits(t: int, isCurrentWeek: bool) {
    var m := ThisMonday(t);
    m + 7 <= MaxOrdinal && (isCurrentWeek || m - 7 >= 1)
  }

  /** The weekdays of the eight days from a Monday on. */
  lemma WeekdayShift(o: int, k: int)
    requires WeekdayOf(o) == 0 && 0 <= k <= 7
    ensures WeekdayOf(o + k) == (if k == 7 then 0 else k)
  {
  }

  lemma WeekdayBack(o: int)
    requires WeekdayOf(o) != 0
    ensures WeekdayOf(o - 1) == WeekdayOf(o) - 1
  {
  }

  /** The two `while` loops of `get_events` that walk to the Mondays, then the
      shift by a week; stepping past 9999-12-31 or before 0001-01-01 raises. */
  method WeekWindow(t: int, isCurrentWeek: bool) returns (w: Result<Window, IcsError>)
    requires 1 <= t <= MaxOrdinal
    ensures w.Ok? <==> WindowFits(t, isCurrentWeek)
    ensures w.Ok? ==> w.value == SpecWindow(t, isCurrentWeek)
    ensures w.Ok? ==> WeekdayOf(w.value.lo) == 0 && w.value.hi == w.value.lo + 7
    ensures w.Ok? && isCurrentWeek ==> w.value.lo <= t < w.value.hi
    ensures w.Ok? && !isCurrentWeek ==> w.value.hi <= t < w.value.hi + 7
    ensures w.Err? ==> w.error == DateOverflow
  {
    var minDate := t;
    while WeekdayOf(minDate) != 0
      invariant 1 <= minDate <= t
      invariant WeekdayOf(minDate) == WeekdayOf(t) - (t - minDate)
      decreases minDate
    {
      WeekdayBack(minDate);
      minDate := minDate - 1;
    }
    assert minDate == ThisMonday(t);
    var maxDate := t;
    WeekdayShift(minDate, t - minDate);
    while WeekdayOf(maxDate) != 0 || maxDate == minDate
      invariant minDate <= maxDate <= minDate + 7 && maxDate <= MaxOrdinal
      invariant WeekdayOf(maxDate) == (if maxDate == minDate + 7 then 0 else maxDate - minDate)
      decreases minDate + 7 - maxDate
    {
      if maxDate == MaxOrdinal {
        return Err(DateOverflow);
      }
      maxDate := maxDate + 1;
      WeekdayShift(minDate, maxDate - minDate);
    }
    assert maxDate == minDate + 7;
    if !isCurrentWeek {
      if minDate - 7 < 1 {
        return Err(DateOverflow);
      }
      minDate := minDate - 7;
      maxDate := maxDate - 7;
      WeekdayShift(minDate, 7);
    }
    w := Ok(Window(minDate, maxDate));
  }

  /** `min_date <= event['date'].date() < max_date` */
  predicate InWindow(w: Window, c: Candidate) {
    ValidDateTime(c.date) && w.lo <= Ordinal(c.date.date) < w.hi
  }

  /** The candidates whose calendar date lies in the window of the day with
      ordinal `t`, in file order. */
  function InWeek(all: seq<Candidate>, t: int, isCurrentWeek: bool): (r: seq<Candidate>)
    ensures forall i :: 0 <= i < |r| ==> InWindow(SpecWindow(t, isCurrentWeek), r[i])
    ensures forall i :: 0 <= i < |r| ==> ValidDateTime(r[i].date)
    ensures Seqs.IsSubsequence(r, all)
    ensures forall c :: multiset(r)[c] == if InWindow(SpecWindow(t, isCurrentWeek), c) then multiset(all)[c] else 0
  {
    Seqs.FilterKeeps(c => InWindow(SpecWindow(t, isCurrentWeek), c), all);
    Seqs.Filter(c => InWindow(SpecWindow(t, isCurrentWeek), c), all)
  }

  /** `ICSParser.get_events` on the text of the file, with `today` standing
      for `datetime.now().date()`. */
  method GetEvents(text: string, today: Date, isCurrentWeek: bool) returns (r: Result<seq<Candidate>, IcsError>)
    requires ValidDate(today)
    ensures r.Ok? <==> ExtractAll(Blocks(text)).Ok? && WindowFits(Ordinal(today), isCurrentWeek)
    ensures ExtractAll(Blocks(text)).Err? ==> r == Err(ExtractAll(Blocks(text)).error)
    ensures ExtractAll(Blocks(text)).Ok? && !WindowFits(Ordinal(today), isCurrentWeek) ==> r == Err(DateOverflow)
    ensures r.Ok? ==> r.value == Seqs.Filter(c => InWindow(SpecWindow(Ordinal(today), isCurrentWeek), c),
                                             ExtractAll(Blocks(text)).value)
    ensures r.Ok? ==> forall i :: 0 <= i < |r.value| ==> InWindow(SpecWindow(Ordinal(today), isCurrentWeek), r.value[i])
    ensures r.Ok? ==> r.value == InWeek(ExtractAll(Blocks(text)).value, Ordinal(today), isCurrentWeek)
  {
    var all :- ExtractAll(Blocks(text));
    OrdinalBounds(today);
    var w :- WeekWindow(Ordinal(today), isCurrentWeek);
    var kept := Seqs.Filter(c => InWindow(w, c), all);
    forall i | 0 <= i < |kept|
      ensures InWindow(w, kept[i])
    {
      Seqs.FilterMembers(c => InWindow(w, c), all, kept[i]);
    }
    r := Ok(kept);
  }
}

=== FILE: seqs.dfy ===
/** Order-preserving filtering of sequences, the shape of both the week
    filter and the duplicate filter. */
module Seqs {
  import opened Wrappers

  /** `a` can be obtained from `b` by deleting elements, keeping the order. */
  predicate IsSubsequence<T(==)>(a: seq<T>, b: seq<T>)
    decreases |b|
  {
    if a == [] then true
    else if b == [] then false
    else if a[0] == b[0] then IsSubsequence(a[1..], b[1..])
    else IsSubsequence(a, b[1..])
  }

  /** `[x for x in xs if keep(x)]` */
  function Filter<T(==,!new)>(keep: T -> bool, xs: seq<T>): (r: seq<T>)
    ensures IsSubsequence(r, xs)
    ensures forall x :: multiset(r)[x] == if keep(x) then multiset(xs)[x] else 0
  {
    if xs == [] then []
    else
      var rest := Filter(keep, xs[1..]);
      assert xs == [xs[0]] + xs[1..];
      if keep(xs[0]) then
        assert ([xs[0]] + rest)[1..] == rest;
        [xs[0]] + rest
      else
        rest
  }

  /** Membership in a filtered sequence, element by element. */
  lemma FilterMembers<T(!new)>(keep: T -> bool, xs: seq<T>, x: T)
    ensures x in Filter(keep, xs) <==> x in xs && keep(x)
  {
    var r := Filter(keep, xs);
    assert x in r <==> multiset(r)[x] > 0;
    assert x in xs <==> multiset(xs)[x] > 0;
  }

  /** Every element a filter keeps passes its test. */
  lemma FilterKeeps<T(!new)>(keep: T -> bool, xs: seq<T>)
    ensures forall i :: 0 <= i < |Filter(keep, xs)| ==> keep(Filter(keep, xs)[i])
  {
    var r := Filter(keep, xs);
    forall i | 0 <= i < |r|
      ensures keep(r[i])
    {
      FilterMembers(keep, xs, r[i]);
    }
  }

  /** Filtering twice with the same test changes nothing more. */
  lemma {:induction false} FilterIdempotent<T(!new)>(keep: T -> bool, xs: seq<T>)
    ensures Filter(keep, Filter(keep, xs)) == Filter(keep, xs)
  {
    if xs != [] {
      FilterIdempotent(keep, xs[1..]);
      var rest := Filter(keep, xs[1..]);
      if keep(xs[0]) {
        assert ([xs[0]] + rest)[1..] == rest;
      }
    }
  }

  /** `list(map(f, xs))` where `f` may raise: the first element that fails
      ends the whole computation, with nothing returned. */
  function MapAll<A, B, E(==)>(f: A -> Result<B, E>, xs: seq<A>): (r: Result<seq<B>, E>)
    ensures r.Ok? <==> forall i :: 0 <= i < |xs| ==> f(xs[i]).Ok?
    ensures r.Ok? ==> |r.value| == |xs|
    ensures r.Ok? ==> forall i :: 0 <= i < |xs| ==> r.value[i] == f(xs[i]).value
    ensures r.Err? ==> exists i :: 0 <= i < |xs| && f(xs[i]).Err? && f(xs[i]).error == r.error
                                   && forall j :: 0 <= j < i ==> f(xs[j]).Ok?
  {
    if xs == [] then Ok([])
    else
      match f(xs[0])
      case Err(e) => Err(e)
      case Ok(y) =>
        assert forall i :: 1 <= i < |xs| ==> xs[1..][i - 1] == xs[i];
        match MapAll(f, xs[1..])
        case Err(e) =>
          var i :| 0 <= i < |xs[1..]| && f(xs[1..][i]).Err? && f(xs[1..][i]).error == e && forall j :: 0 <= j < i ==> f(xs[1..][j]).Ok?;
          assert f(xs[i + 1]).Err? && f(xs[i + 1]).error == e;
          Err(e)
        case Ok(ys) => Ok([y] + ys)
  }
}

=== FILE: session.dfy ===
/**
  The rotating two-cookie session of `BubuLearn`: every request carries the
  `XSRF-TOKEN` and `crm_session` cookies, and every response's cookies
  replace them before the next request; logout forgets them.
*/
module Session {
  import opened Wrappers
  import opened Text

  const XsrfCookie := "XSRF-TOKEN"
  const SessionCookie := "crm_session"

  /** `self.cookies` */
  type Jar = map<string, string>

  /** What the backend answers to one request, with the JSON body already
      decoded into `B`; `NoReply` is a transport failure. */
  datatype Reply<B> = Reply(status: int, cookies: map<string, string>, body: B) | NoReply

  datatype HttpError =
    | TransportFailure
    | MissingCookie(name: string)   // `res.cookies[name]` raises KeyError
    | NotLoggedIn                   // `self.cookies[name]` raises KeyError
    | MissingCsrfMeta               // the login page has no csrf-token meta tag
    | MalformedBody                 // the JSON lacks a key the code reads

  predicate HasTokens(jar: Jar) {
    XsrfCookie in jar && SessionCookie in jar
  }

  /** The jar holds both tokens, with the values the cookies `cookies` carry. */
  predicate TokensFrom(jar: Jar, cookies: map<string, string>) {
    && HasTokens(jar) && HasTokens(cookies)
    && jar[XsrfCookie] == cookies[XsrfCookie] && jar[SessionCookie] == cookies[SessionCookie]
  }

  /** The `Cookie` header of an authenticated request. */
  function CookieHeader(jar: Jar): (r: Option<string>)
    ensures r.Some? <==> HasTokens(jar)
    ensures r.Some? ==> r.value == "XSRF-TOKEN=" + jar[XsrfCookie] + "; crm_session=" + jar[SessionCookie]
  {
    if HasTokens(jar) then
      Some(XsrfCookie + "=" + jar[XsrfCookie] + "; " + SessionCookie + "=" + jar[SessionCookie])
    else None
  }

  /** The `Cookie` header depends on the two tokens only: a jar that took
      its tokens from a reply's cookies sends the header those cookies would. */
  lemma CookieHeaderOfTokens(jar: Jar, cookies: map<string, string>)
    requires TokensFrom(jar, cookies)
    ensures CookieHeader(jar) == CookieHeader(cookies)
  {
  }

  /** A text without `;` holds no `"; "`. */
  lemma NoSemicolonNoSeparator(s: string)
    requires forall i :: 0 <= i < |s| ==> s[i] != ';'
    ensures !Contains(s, "; ")
  {
    forall j | 0 <= j <= |s|
      ensures !OccursAt(s, "; ", j)
    {
      if j + 2 <= |s| {
        assert s[j..j + 2][0] == s[j];
      }
    }
  }

  /** The first `"; "` is the one before which no `;` occurs. */
  lemma FirstSeparator(h: string, n: nat)
    requires OccursAt(h, "; ", n)
    requires forall j :: 0 <= j < n ==> h[j] != ';'
    ensures Find(h, "; ") == Some(n)
  {
    forall j | 0 <= j < n
      ensures !OccursAt(h, "; ", j)
    {
      assert h[j..j + 2][0] == h[j];
    }
  }

  /** Two `;`-free texts joined by `"; "` split back into the two. */
  lemma SplitPair(a: string, c: string)
    requires forall i :: 0 <= i < |a| ==> a[i] != ';'
    requires forall i :: 0 <= i < |c| ==> c[i] != ';'
    ensures Split(a + "; " + c, "; ") == [a, c]
  {
    var h := a + "; " + c;
    NoSemicolonNoSeparator(c);
    assert Split(c, "; ") == [c];
    assert h[|a|..|a| + 2] == "; ";
    forall j | 0 <= j < |a|
      ensures h[j] != ';'
    {
      assert h[j] == a[j];
    }
    FirstSeparator(h, |a|);
    assert h[..|a|] == a;
    assert h[|a| + 2..] == c;
  }

  /** For tokens without `;`, splitting the header at `"; "` gives back the
      two `name=value` pairs, so the header carries exactly the jar's tokens. */
  lemma CookieHeaderSplits(jar: Jar)
    requires HasTokens(jar)
    requires forall i :: 0 <= i < |jar[XsrfCookie]| ==> jar[XsrfCookie][i] != ';'
    requires forall i :: 0 <= i < |jar[SessionCookie]| ==> jar[SessionCookie][i] != ';'
    ensures Split(CookieHeader(jar).value, "; ") == ["XSRF-TOKEN=" + jar[XsrfCookie], "crm_session=" + jar[SessionCookie]]
  {
    var x, y := jar[XsrfCookie], jar[SessionCookie];
    var a := "XSRF-TOKEN=" + x;
    var c := "crm_session=" + y;
    forall i | 0 <= i < |a|
      ensures a[i] != ';'
    {
      if i >= 11 {
        assert a[i] == x[i - 11];
      }
    }
    forall i | 0 <= i < |c|
      ensures c[i] != ';'
    {
      if i >= 12 {
        assert c[i] == y[i - 12];
      }
    }
    SplitPair(a, c);
    assert CookieHeader(jar).value == a + "; " + c;
  }

  /** The `X-XSRF-TOKEN` header of a POST: the cookie with `%3D` decoded. */
  function XsrfHeader(jar: Jar): Option<string> {
    if XsrfCookie in jar then Some(UnquoteEquals(jar[XsrfCookie])) else None
  }

  /** The header gives back the token the backend encoded into the cookie. */
  lemma XsrfHeaderDecodes(jar: Jar, token: string)
    requires forall i :: 0 <= i < |token| ==> token[i] != '%'
    requires XsrfCookie in jar && jar[XsrfCookie] == QuoteEquals(token)
    ensures XsrfHeader(jar) == Some(token)
  {
    UnquoteQuote(token);
  }

  /** The two assignments that follow every request. The XSRF cookie is
      stored before the session cookie is looked up, so a response lacking
      only the session cookie leaves the jar half rotated. */
  function Rotate(jar: Jar, cookies: map<string, string>): (r: Result<Jar, HttpError>)
    ensures r.Ok? <==> XsrfCookie in cookies && SessionCookie in cookies
    ensures r.Ok? ==> r.value.Keys == jar.Keys + {XsrfCookie, SessionCookie}
    ensures r.Ok? ==> r.value[XsrfCookie] == cookies[XsrfCookie]
    ensures r.Ok? ==> r.value[SessionCookie] == cookies[SessionCookie]
    ensures r.Ok? ==> forall k :: k in jar && k != XsrfCookie && k != SessionCookie ==> r.value[k] == jar[k]
  {
    if XsrfCookie !in cookies then Err(MissingCookie(XsrfCookie))
    else if SessionCookie !in cookies then Err(MissingCookie(SessionCookie))
    else Ok(jar[XsrfCookie := cookies[XsrfCookie]][SessionCookie := cookies[SessionCookie]])
  }

  /** The jar a failed rotation leaves behind. */
  function RotateLeftover(jar: Jar, cookies: map<string, string>): (r: Jar)
    ensures r.Keys == jar.Keys + (if XsrfCookie in cookies then {XsrfCookie} else {})
    ensures XsrfCookie in cookies ==> r[XsrfCookie] == cookies[XsrfCookie]
    ensures forall k :: k in jar && (k != XsrfCookie || XsrfCookie !in cookies) ==> r[k] == jar[k]
  {
    if XsrfCookie in cookies then jar[XsrfCookie := cookies[XsrfCookie]] else jar
  }

  /** One authenticated request and its reply: the jar afterwards, and the
      reply or the error the request raised. */
  datatype Exchanged<B> = Exchanged(jar: Jar, reply: Result<Reply<B>, HttpError>)

  function Exchange<B>(jar: Jar, reply: Reply<B>): (r: Exchanged<B>)
    ensures !HasTokens(jar) ==> r == Exchanged(jar, Err(NotLoggedIn))
    ensures r.reply.Ok? <==> HasTokens(jar) && reply.Reply? && Rotate(jar, reply.cookies).Ok?
    ensures r.reply.Ok? ==> r.reply.value == reply && HasTokens(r.jar)
    ensures r.reply.Ok? ==> r.jar[XsrfCookie] == reply.cookies[XsrfCookie]
                            && r.jar[SessionCookie] == reply.cookies[SessionCookie]
    ensures r.reply.Ok? ==> r.jar.Keys == jar.Keys
    ensures r.reply.Err? ==> r.jar.Keys == jar.Keys && forall k :: k in jar && k != XsrfCookie ==> r.jar[k] == jar[k]
    ensures r.reply.Err? && HasTokens(jar) && reply.Reply? && XsrfCookie in reply.cookies ==>
              r.jar[XsrfCookie] == reply.cookies[XsrfCookie]
    ensures r.reply.Err? && !(HasTokens(jar) && reply.Reply? && XsrfCookie in reply.cookies) ==> r.jar == jar
  {
    if !HasTokens(jar) then Exchanged(jar, Err(NotLoggedIn))
    else if reply.NoReply? then Exchanged(jar, Err(TransportFailure))
    else
      match Rotate(jar, reply.cookies)
      case Ok(j) => Exchanged(j, Ok(reply))
      case Err(e) => Exchanged(RotateLeftover(jar, reply.cookies), Err(e))
  }

  /** A reply carrying a new XSRF token but no session cookie raises, and
      leaves the jar with the new XSRF token beside the old session cookie. */
  lemma HalfRotation<B>(jar: Jar, reply: Reply<B>)
    requires HasTokens(jar) && reply.Reply?
    requires XsrfCookie in reply.cookies && SessionCookie !in reply.cookies
    ensures Exchange(jar, reply).reply == Err(MissingCookie(SessionCookie))
    ensures var j := Exchange(jar, reply).jar;
            HasTokens(j) && j[XsrfCookie] == reply.cookies[XsrfCookie] && j[SessionCookie] == jar[SessionCookie]
  {
  }

  /** The tokens a chain of successful exchanges ends with are those of the
      last reply, whatever the jar started with. */
  function ExchangeAll(jar: Jar, replies: seq<Reply<()>>): Result<Jar, HttpError>
    decreases |replies|
  {
    if replies == [] then Ok(jar)
    else
      var step := Exchange(jar, replies[0]);
      match step.reply
      case Err(e) => Err(e)
      case Ok(_) => ExchangeAll(step.jar, replies[1..])
  }

  lemma {:induction false} LastReplyWins(jar: Jar, replies: seq<Reply<()>>)
    requires |replies| > 0 && ExchangeAll(jar, replies).Ok?
    ensures var j := ExchangeAll(jar, replies).value;
            var last := replies[|replies| - 1];
            last.Reply? && j.Keys == jar.Keys && HasTokens(j) && HasTokens(last.cookies)
            && j[XsrfCookie] == last.cookies[XsrfCookie]
            && j[SessionCookie] == last.cookies[SessionCookie]
    decreases |replies|
  {
    var step := Exchange(jar, replies[0]);
    if |replies| > 1 {
      LastReplyWins(step.jar, replies[1..]);
      assert replies[1..][|replies| - 2] == replies[|replies| - 1];
    }
  }

  /** `__login`: an unauthenticated GET whose cookies seed the jar and whose
      page holds the csrf token, then the form POST whose cookies replace
      them. Neither status code is inspected. */
  function Login(page: Reply<Option<string>>, form: Reply<()>): (r: Result<Jar, HttpError>)
    ensures r.Ok? ==> r.value.Keys == {XsrfCookie, SessionCookie}
    ensures r.Ok? ==> form.Reply? && HasTokens(form.cookies) && r.value[XsrfCookie] == form.cookies[XsrfCookie]
                      && r.value[SessionCookie] == form.cookies[SessionCookie]
    ensures r.Ok? ==> page.Reply? && page.body.Some? && Rotate(map[], page.cookies).Ok?
    ensures r.Ok? <==> (page.Reply? && HasTokens(page.cookies) && page.body.Some?
                        && form.Reply? && HasTokens(form.cookies))
  {
    if page.NoReply? then Err(TransportFailure)
    else
      var seeded :- Rotate(map[], page.cookies);
      if page.body.None? then Err(MissingCsrfMeta)
      else
        var step := Exchange(seeded, form);
        match step.reply
        case Err(e) => Err(e)
        case Ok(_) => Ok(step.jar)
  }

  /** `logout`: one authenticated GET whose reply is ignored, then the jar is
      emptied; a transport failure raises before the jar is emptied. */
  function Logout(jar: Jar, reply: Reply<()>): (r: Result<Jar, HttpError>)
    ensures r.Ok? <==> HasTokens(jar) && reply.Reply?
    ensures r.Ok? ==> r.value == map[]
  {
    if !HasTokens(jar) then Err(NotLoggedIn)
    else if reply.NoReply? then Err(TransportFailure)
    else Ok(map[])
  }

  /** After logout no authenticated request can be built. */
  lemma NothingAfterLogout<B>(jar: Jar, reply: Reply<()>, next: Reply<B>)
    requires Logout(jar, reply).Ok?
    ensures Exchange(Logout(jar, reply).value, next).reply == Err(NotLoggedIn)
    ensures CookieHeader(Logout(jar, reply).value).None?
  {
  }
}

=== FILE: sync.dfy ===
/**
  The synchronisation engine of `BubuLearn`: the rendering of start times,
  the duplicate filter against the events already in the backend, the
  resolution of a phone to a (product, customer, student) triple, the
  creation request of `add_event`, and the per-lesson batch.
*/
module Sync {
  import opened Wrappers
  import opened Civil
  import opened Text
  import opened Session
  import opened Catalog
  import Ics
  import Seqs

  datatype SyncError =
    | Http(error: HttpError)
    | NoProducts       // `self.product_ids[0]` on an empty list raises IndexError
    | NoPhoneNumber    // a customer with no phone: `x['phones'][0]` raises IndexError
    | TimeOverflow     // date arithmetic past the representable range raises OverflowError
    | MissingStart     // a fetched event without `start`: `x['start']` raises KeyError

  // ---------------------------------------------------------------------
  // strftime renderings

  /** `%Y-%m-%d` */
  function FormatDate(d: Date): (r: string)
    requires ValidDate(d)
    ensures |r| == 10
  {
    Pad(d.year, 4) + "-" + Pad(d.month, 2) + "-" + Pad(d.day, 2)
  }

  /** `%Y-%m-%d %H:%M`, the key compared with a fetched event's `start`. */
  function MinuteKey(t: DateTime): (r: string)
    requires ValidDateTime(t)
    ensures |r| == 16
  {
    FormatDate(t.date) + " " + Pad(t.hour, 2) + ":" + Pad(t.minute, 2)
  }

  /** `%Y-%m-%dT%H:%M:%S.000Z`, the form of `start` and `end` in a creation request. */
  function IsoStamp(t: DateTime): (r: string)
    requires ValidDateTime(t)
    ensures |r| == 24
  {
    FormatDate(t.date) + "T" + Pad(t.hour, 2) + ":" + Pad(t.minute, 2) + ":" + Pad(t.second, 2) + ".000Z"
  }

  /** Where each field sits in a key. */
  lemma MinuteKeyFields(t: DateTime)
    requires ValidDateTime(t)
    ensures MinuteKey(t)[0..4] == Pad(t.date.year, 4)
    ensures MinuteKey(t)[5..7] == Pad(t.date.month, 2)
    ensures MinuteKey(t)[8..10] == Pad(t.date.day, 2)
    ensures MinuteKey(t)[11..13] == Pad(t.hour, 2)
    ensures MinuteKey(t)[14..16] == Pad(t.minute, 2)
  {
  }

  /** Two values that fit a width have the same padded form only if they are equal. */
  lemma PadInjective(x: nat, y: nat, w: nat)
    requires x < Pow10(w) && y < Pow10(w)
    requires Pad(x, w) == Pad(y, w)
    ensures x == y
  {
    PadRoundTrip(x, w);
    PadRoundTrip(y, w);
  }

  /** Two valid date-times share a key exactly when they fall in the same minute. */
  lemma MinuteKeyInjective(a: DateTime, b: DateTime)
    requires ValidDateTime(a) && ValidDateTime(b)
    ensures MinuteKey(a) == MinuteKey(b) <==>
            a.date == b.date && a.hour == b.hour && a.minute == b.minute
  {
    if MinuteKey(a) == MinuteKey(b) {
      MinuteKeyFields(a);
      MinuteKeyFields(b);
      assert Pow10(2) == 100 && Pow10(4) == 10000;
      PadInjective(a.date.year, b.date.year, 4);
      PadInjective(a.date.month, b.date.month, 2);
      PadInjective(a.date.day, b.date.day, 2);
      PadInjective(a.hour, b.hour, 2);
      PadInjective(a.minute, b.minute, 2);
    }
  }

  /** Where each field sits in a `%Y-%m-%d` rendering. */
  lemma FormatDateFields(d: Date)
    requires ValidDate(d)
    ensures FormatDate(d)[0..4] == Pad(d.year, 4)
    ensures FormatDate(d)[5..7] == Pad(d.month, 2)
    ensures FormatDate(d)[8..10] == Pad(d.day, 2)
    ensures FormatDate(d)[4] == '-' && FormatDate(d)[7] == '-'
  {
  }

  /** Two valid dates render alike exactly when they are the same date. */
  lemma FormatDateInjective(a: Date, b: Date)
    requires ValidDate(a) && ValidDate(b)
    ensures FormatDate(a) == FormatDate(b) <==> a == b
  {
    if FormatDate(a) == FormatDate(b) {
      FormatDateFields(a);
      FormatDateFields(b);
      assert Pow10(2) == 100 && Pow10(4) == 10000;
      PadInjective(a.year, b.year, 4);
      PadInjective(a.month, b.month, 2);
      PadInjective(a.day, b.day, 2);
    }
  }

  /** Where each field sits in a creation-request time stamp. */
  lemma IsoStampFields(t: DateTime)
    requires ValidDateTime(t)
    ensures IsoStamp(t)[0..10] == FormatDate(t.date)
    ensures IsoStamp(t)[11..13] == Pad(t.hour, 2)
    ensures IsoStamp(t)[14..16] == Pad(t.minute, 2)
    ensures IsoStamp(t)[17..19] == Pad(t.second, 2)
    ensures IsoStamp(t)[10] == 'T' && IsoStamp(t)[13] == ':' && IsoStamp(t)[16] == ':'
    ensures IsoStamp(t)[19..] == ".000Z"
  {
  }

  /** Two valid date-times have the same `start`/`end` rendering exactly when
      they are the same to the second. */
  lemma IsoStampInjective(a: DateTime, b: DateTime)
    requires ValidDateTime(a) && ValidDateTime(b)
    ensures IsoStamp(a) == IsoStamp(b) <==> a == b
  {
    if IsoStamp(a) == IsoStamp(b) {
      IsoStampFields(a);
      IsoStampFields(b);
      FormatDateInjective(a.date, b.date);
      assert Pow10(2) == 100;
      PadInjective(a.hour, b.hour, 2);
      PadInjective(a.minute, b.minute, 2);
      PadInjective(a.second, b.second, 2);
    }
  }

  // ---------------------------------------------------------------------
  // drop_duplicates_events

  /** An event of `/api/calendars/events`; `None` where it has no `start`. */
  datatype RemoteEvent = RemoteEvent(start: Option<string>)

  /** `list(map(lambda x: x['start'], self.events))` */
  function Starts(events: seq<RemoteEvent>): (r: Result<seq<string>, SyncError>)
    ensures r.Ok? <==> forall i :: 0 <= i < |events| ==> events[i].start.Some?
    ensures r.Ok? ==> |r.value| == |events|
    ensures r.Ok? ==> forall i :: 0 <= i < |events| ==> r.value[i] == events[i].start.value
  {
    if events == [] then Ok([])
    else
      var rest := Starts(events[1..]);
      assert forall i :: 1 <= i < |events| ==> events[1..][i - 1] == events[i];
      if events[0].start.None? then Err(MissingStart)
      else if rest.Err? then rest
      else Ok([events[0].start.value] + rest.value)
  }

  /** The test of `drop_duplicates_events`: the phone plays no part. */
  predicate IsNew(existing: seq<string>, c: Ics.Candidate) {
    ValidDateTime(c.date) && MinuteKey(c.date) !in existing
  }

  function DropDuplicates(cs: seq<Ics.Candidate>, events: seq<RemoteEvent>): (r: Result<seq<Ics.Candidate>, SyncError>)
    requires forall i :: 0 <= i < |cs| ==> ValidDateTime(cs[i].date)
    ensures r.Err? <==> Starts(events).Err?
    ensures r.Ok? ==> Seqs.IsSubsequence(r.value, cs)
    ensures r.Ok? ==> forall c :: multiset(r.value)[c] == if IsNew(Starts(events).value, c) then multiset(cs)[c] else 0
    ensures r.Ok? ==> forall c :: c in r.value <==>
      c in cs && ValidDateTime(c.date) && forall i :: 0 <= i < |events| ==> events[i].start != Some(MinuteKey(c.date))
    ensures r.Ok? ==> forall i :: 0 <= i < |r.value| ==> ValidDateTime(r.value[i].date)
  {
    var existing :- Starts(events);
    var kept := Seqs.Filter(c => IsNew(existing, c), cs);
    forall c
      ensures c in kept <==> c in cs && ValidDateTime(c.date) && forall i :: 0 <= i < |events| ==> events[i].start != Some(MinuteKey(c.date))
    {
      Seqs.FilterMembers(c => IsNew(existing, c), cs, c);
    }
    assert forall i :: 0 <= i < |kept| ==> kept[i] in kept;
    Ok(kept)
  }

  /** Filtering a second time against the same events removes nothing more. */
  lemma DropDuplicatesIdempotent(cs: seq<Ics.Candidate>, events: seq<RemoteEvent>)
    requires forall i :: 0 <= i < |cs| ==> ValidDateTime(cs[i].date)
    requires forall i :: 0 <= i < |events| ==> events[i].start.Some?
    ensures var once := DropDuplicates(cs, events).value;
            (forall i :: 0 <= i < |once| ==> ValidDateTime(once[i].date))
            && DropDuplicates(once, events) == Ok(once)
  {
    var existing := Starts(events).value;
    var once := DropDuplicates(cs, events).value;
    assert once == Seqs.Filter(c => IsNew(existing, c), cs);
    Seqs.FilterIdempotent(c => IsNew(existing, c), cs);
    forall i | 0 <= i < |once|
      ensures ValidDateTime(once[i].date)
    {
      assert once[i] in cs;
    }
  }

  /** Two lessons in the same minute are kept or dropped together, even for
      different phones. */
  lemma DropDuplicatesIgnoresPhone(cs: seq<Ics.Candidate>, events: seq<RemoteEvent>, a: Ics.Candidate, b: Ics.Candidate)
    requires forall i :: 0 <= i < |cs| ==> ValidDateTime(cs[i].date)
    requires forall i :: 0 <= i < |events| ==> events[i].start.Some?
    requires a in cs && b in cs
    requires a.date.date == b.date.date && a.date.hour == b.date.hour && a.date.minute == b.date.minute
    ensures a in DropDuplicates(cs, events).value <==> b in DropDuplicates(cs, events).value
  {
    MinuteKeyInjective(a.date, b.date);
  }

  // ---------------------------------------------------------------------
  // add_event: resolution

  /** The two indexes of one product. */
  datatype ProductIndex = ProductIndex(customers: map<string, Customer>, students: map<int, Student>)

  /** `self.customers` and `self.students`, keyed by product id. */
  type Directory = map<int, ProductIndex>

  predicate Covers(dir: Directory, pids: seq<int>) {
    forall i :: 0 <= i < |pids| ==> pids[i] in dir
  }

  /** `pids[i]` is the first product, in configured order, knowing `phone`. */
  predicate IsFirstWithCustomer(dir: Directory, pids: seq<int>, phone: string, i: int)
    requires Covers(dir, pids)
  {
    && 0 <= i < |pids|
    && phone in dir[pids[i]].customers
    && forall j :: 0 <= j < i ==> phone !in dir[pids[j]].customers
  }

  /** The `for p_id in self.product_ids` loop with its `break`. */
  function FirstWithCustomer(dir: Directory, pids: seq<int>, phone: string): (r: Option<nat>)
    requires Covers(dir, pids)
    ensures r.Some? ==> IsFirstWithCustomer(dir, pids, phone, r.value)
    ensures r.None? <==> forall j :: 0 <= j < |pids| ==> phone !in dir[pids[j]].customers
    decreases |pids|
  {
    if pids == [] then None
    else if phone in dir[pids[0]].customers then Some(0)
    else
      assert Covers(dir, pids[1..]);
      match FirstWithCustomer(dir, pids[1..], phone)
      case None =>
        assert forall j :: 1 <= j < |pids| ==> pids[1..][j - 1] == pids[j];
        None
      case Some(i) =>
        assert forall j :: 1 <= j < |pids| ==> pids[1..][j - 1] == pids[j];
        Some(i + 1)
  }

  datatype Resolution = Found(product: int, customer: Customer, student: Student) | NotFound

  /** The product, customer and student `add_event` settles on. The student is
      looked up only in the first product that knows the phone. */
  function Resolve(dir: Directory, pids: seq<int>, phone: string): (r: Result<Resolution, SyncError>)
    requires Covers(dir, pids)
    ensures r.Err? <==> pids == []
    ensures r.Err? ==> r.error == NoProducts
    ensures r.Ok? && r.value.Found? ==>
      exists i :: (IsFirstWithCustomer(dir, pids, phone, i)
                   && r.value.product == pids[i]
                   && r.value.customer == dir[pids[i]].customers[phone]
                   && r.value.customer.id in dir[pids[i]].students
                   && r.value.student == dir[pids[i]].students[r.value.customer.id])
    ensures r.Ok? && r.value.NotFound? ==>
      forall i :: (IsFirstWithCustomer(dir, pids, phone, i)
                   ==> dir[pids[i]].customers[phone].id !in dir[pids[i]].students)
  {
    if pids == [] then Err(NoProducts)
    else
      match FirstWithCustomer(dir, pids, phone)
      case None => Ok(NotFound)
      case Some(i) =>
        var p := pids[i];
        var c := dir[p].customers[phone];
        if c.id in dir[p].students then Ok(Found(p, c, dir[p].students[c.id]))
        else Ok(NotFound)
  }

  /** The search stops at the first product knowing the phone. */
  lemma FirstIsUnique(dir: Directory, pids: seq<int>, phone: string, i: int)
    requires Covers(dir, pids)
    requires IsFirstWithCustomer(dir, pids, phone, i)
    ensures FirstWithCustomer(dir, pids, phone) == Some(i)
  {
    var r := FirstWithCustomer(dir, pids, phone);
    assert phone in dir[pids[i]].customers;
  }

  /** There is no fallback: when the first product knowing the phone has no
      student for that customer, the lesson is not addable even if a later
      product has both. */
  lemma NoFallback(dir: Directory, pids: seq<int>, phone: string, i: int, k: int)
    requires Covers(dir, pids)
    requires IsFirstWithCustomer(dir, pids, phone, i)
    requires dir[pids[i]].customers[phone].id !in dir[pids[i]].students
    requires i < k < |pids| && phone in dir[pids[k]].customers
    requires dir[pids[k]].customers[phone].id in dir[pids[k]].students
    ensures Resolve(dir, pids, phone) == Ok(NotFound)
  {
    FirstIsUnique(dir, pids, phone, i);
  }

  // ---------------------------------------------------------------------
  // add_event: the creation request

  /** The fields of the creation payload that depend on the lesson. */
  datatype Payload = Payload(productId: int, userId: int, customerId: int, studentId: int, start: string, end: string)

  /** The decoded creation response; `Unreadable` where `res.json()['event']['id']` raises. */
  datatype AddBody = Created(eventId: Option<int>) | Unreadable

  /** The lesson was created: status 200 and a non-null event id. */
  predicate IsCreated(reply: Reply<AddBody>) {
    reply.Reply? && reply.status == 200 && reply.body.Created? && reply.body.eventId.Some?
  }

  /** The backend answered with both cookies, and the body is readable
      whenever the status is 200 (the only case in which it is read). */
  predicate Deliverable(reply: Reply<AddBody>) {
    reply.Reply? && HasTokens(reply.cookies) && (reply.status != 200 || !reply.body.Unreadable?)
  }

  /** The lesson-dependent fields of the payload; `None` where the end time
      `date + timedelta(minutes=30)` raises `OverflowError`. */
  function LessonPayload(f: Resolution, userId: int, date: DateTime): (r: Option<Payload>)
    requires f.Found? && ValidDateTime(date)
    ensures r.None? <==> date.date == LastDay && date.hour * 60 + date.minute + 30 >= 1440
    ensures r.Some? ==> (r.value.productId == f.product && r.value.userId == userId
      && r.value.customerId == f.customer.id && r.value.studentId == f.student.id
      && r.value.start == IsoStamp(date))
    ensures r.Some? ==> exists e :: ValidDateTime(e) && Seconds(e) == Seconds(date) + 30 * 60 && r.value.end == IsoStamp(e)
  {
    match AddMinutes(date, 30)
    case None => None
    case Some(end) => Some(Payload(f.product, userId, f.customer.id, f.student.id, IsoStamp(date), IsoStamp(end)))
  }

  /** One creation request: its JSON payload and its `Cookie` and
      `X-XSRF-TOKEN` headers. */
  datatype Request = Request(payload: Payload, cookie: string, xsrf: string)

  /** The jar after the call, the request sent (if any), and the boolean
      `add_event` returns or the error it raises. */
  datatype AddOutcome = AddOutcome(jar: Jar, sent: Option<Request>, result: Result<bool, SyncError>)

  /** The POST of `add_event` and the test of its response. The headers are
      built from the jar first, so a jar without both tokens raises before
      anything is sent. */
  function Submit(jar: Jar, payload: Payload, reply: Reply<AddBody>): (r: AddOutcome)
    ensures r.sent.Some? <==> HasTokens(jar)
    ensures r.sent.Some? ==> r.sent.value.payload == payload
    ensures r.sent.Some? ==> CookieHeader(jar) == Some(r.sent.value.cookie) && XsrfHeader(jar) == Some(r.sent.value.xsrf)
    ensures r.sent.Some? ==> r.jar == Exchange(jar, reply).jar
    ensures r.sent.None? ==> r.jar == jar && r.result == Err(Http(NotLoggedIn))
    ensures r.result == Ok(true) ==> IsCreated(reply)
    ensures r.result.Ok? ==> (r.result.value <==> IsCreated(reply))
    ensures r.result.Ok? ==> (HasTokens(r.jar) && reply.Reply? && HasTokens(reply.cookies)
      && r.jar[XsrfCookie] == reply.cookies[XsrfCookie] && r.jar[SessionCookie] == reply.cookies[SessionCookie])
    ensures Exchange(jar, reply).reply.Ok? && (reply.status != 200 || reply.body.Created?) ==> r.result.Ok?
    ensures HasTokens(jar) && Deliverable(reply) ==> r.result.Ok?
    ensures IsCreated(reply) && Exchange(jar, reply).reply.Ok? ==> r.result == Ok(true)
    ensures r.sent.Some? ==> (r.result.Ok? <==> Deliverable(reply))
    ensures HasTokens(jar) && Exchange(jar, reply).reply.Err? ==> r.result == Err(Http(Exchange(jar, reply).reply.error))
    ensures Exchange(jar, reply).reply.Ok? && reply.status == 200 && reply.body.Unreadable? ==>
      r.result == Err(Http(MalformedBody))
    ensures HasTokens(jar) ==> HasTokens(r.jar)
  {
    if !HasTokens(jar) then AddOutcome(jar, None, Err(Http(NotLoggedIn)))
    else
      var request := Request(payload, CookieHeader(jar).value, XsrfHeader(jar).value);
      var step := Exchange(jar, reply);
      match step.reply
      case Err(e) => AddOutcome(step.jar, Some(request), Err(Http(e)))
      case Ok(res) =>
        if res.status != 200 then AddOutcome(step.jar, Some(request), Ok(false))
        else if res.body.Unreadable? then AddOutcome(step.jar, Some(request), Err(Http(MalformedBody)))
        else AddOutcome(step.jar, Some(request), Ok(res.body.eventId.Some?))
  }

  /** `add_event(phone, date)` */
  method AddEvent(jar: Jar, userId: int, dir: Directory, pids: seq<int>,
                  phone: string, date: DateTime, reply: Reply<AddBody>) returns (r: AddOutcome)
    requires Covers(dir, pids) && ValidDateTime(date)
    ensures Resolve(dir, pids, phone).Err? ==> r == AddOutcome(jar, None, Err(NoProducts))
    ensures Resolve(dir, pids, phone) == Ok(NotFound) ==> r == AddOutcome(jar, None, Ok(false))
    ensures r.sent.Some? ==> (Addable(dir, pids, phone)
      && LessonPayload(Resolve(dir, pids, phone).value, userId, date) == Some(r.sent.value.payload))
    ensures r.sent.Some? ==> CookieHeader(jar) == Some(r.sent.value.cookie) && XsrfHeader(jar) == Some(r.sent.value.xsrf)
    ensures r.sent.Some? ==> r.jar == Exchange(jar, reply).jar
    ensures r.sent.None? ==> r.jar == jar
    ensures r.result == Ok(true) ==> r.sent.Some? && IsCreated(reply)
    ensures r.sent.Some? && r.result.Ok? ==> (r.result.value <==> IsCreated(reply))
    ensures r.result.Err? ==> pids == [] || Addable(dir, pids, phone)
    ensures r.result == Ok(true) ==> Addable(dir, pids, phone)
    ensures pids != [] && !Addable(dir, pids, phone) ==> r == AddOutcome(jar, None, Ok(false))
    ensures Addable(dir, pids, phone) && AddMinutes(date, 30).Some? && HasTokens(jar) ==> r.sent.Some?
    ensures pids != [] && HasTokens(jar) && Deliverable(reply) && AddMinutes(date, 30).Some? ==> r.result.Ok?
    ensures r.result.Ok? && r.sent.None? ==> r.jar == jar
    ensures r.result.Ok? && r.sent.Some? ==> HasTokens(r.jar)
    ensures Addable(dir, pids, phone) && AddMinutes(date, 30).None? ==> r == AddOutcome(jar, None, Err(TimeOverflow))
    ensures r.result.Ok? ==> (r.sent.Some? <==> Addable(dir, pids, phone))
    ensures r.sent.Some? ==> (r.result.Ok? <==> Deliverable(reply))
    ensures HasTokens(jar) ==> HasTokens(r.jar)
    ensures r.result == Err(TimeOverflow) <==> Addable(dir, pids, phone) && AddMinutes(date, 30).None?
  {
    var found := Resolve(dir, pids, phone);
    if found.Err? {
      return AddOutcome(jar, None, Err(found.error));
    }
    if found.value.NotFound? {
      return AddOutcome(jar, None, Ok(false));
    }
    var payload := LessonPayload(found.value, userId, date);
    if payload.None? {
      return AddOutcome(jar, None, Err(TimeOverflow));
    }
    r := Submit(jar, payload.value, reply);
  }

  /** Whether `phone` resolves to a customer and student. */
  predicate Addable(dir: Directory, pids: seq<int>, phone: string)
    requires Covers(dir, pids)
  {
    Resolve(dir, pids, phone).Ok? && Resolve(dir, pids, phone).value.Found?
  }

  // ---------------------------------------------------------------------
  // The loop of `run` over the lessons left after deduplication

  /** The jar afterwards, one boolean per lesson handled, the error that
      stopped the loop if any, and how many creation replies were used. */
  datatype Batch = Batch(jar: Jar, outcomes: seq<bool>, sentAt: seq<Option<nat>>, fatal: Option<SyncError>, used: nat)

  /** How many of the handled lessons had a request sent. */
  function SentCount(sentAt: seq<Option<nat>>): (n: nat)
    ensures n <= |sentAt|
  {
    if sentAt == [] then 0
    else SentCount(sentAt[..|sentAt| - 1]) + (if sentAt[|sentAt| - 1].Some? then 1 else 0)
  }

  /** The record of the lessons handled without a raise: lesson `i` had a
      request sent exactly when its phone resolves; the requests use the
      answers `replies` one after the other; each answer used was
      deliverable; and the lesson's boolean is the creation test of its
      answer (`False` for a lesson with no request). */
  predicate Accounts(dir: Directory, pids: seq<int>, lessons: seq<Ics.Candidate>, replies: seq<Reply<AddBody>>,
                     outcomes: seq<bool>, sentAt: seq<Option<nat>>)
    requires Covers(dir, pids)
  {
    && |sentAt| == |outcomes| <= |lessons|
    && forall i :: 0 <= i < |outcomes| ==>
         && (sentAt[i].Some? <==> Addable(dir, pids, lessons[i].phone))
         && (sentAt[i].Some? ==> sentAt[i].value == SentCount(sentAt[..i]) < |replies|
                                 && Deliverable(replies[sentAt[i].value]))
         && (outcomes[i] <==> sentAt[i].Some? && IsCreated(replies[sentAt[i].value]))
  }

  /** Why the loop ended: it ran through every lesson without a raise, or
      it stopped at the first unhandled lesson, which raised. With no
      product `product_ids[0]` raises at once; otherwise the lesson's phone
      resolves and either its end time overflows or, from a logged-in jar,
      its request got no deliverable answer. */
  predicate Stopped(jar: Jar, dir: Directory, pids: seq<int>, lessons: seq<Ics.Candidate>,
                    replies: seq<Reply<AddBody>>, outcomes: seq<bool>, sentAt: seq<Option<nat>>,
                    fatal: Option<SyncError>)
    requires Covers(dir, pids)
    requires forall i :: 0 <= i < |lessons| ==> ValidDateTime(lessons[i].date)
  {
    var n := |outcomes|;
    var m := SentCount(sentAt);
    && n <= |lessons|
    && (fatal.None? <==> n == |lessons|)
    && (pids == [] && lessons != [] ==> fatal == Some(NoProducts) && n == 0)
    && (fatal.Some? && pids != [] ==>
          && n < |lessons|
          && Addable(dir, pids, lessons[n].phone)
          && (fatal == Some(TimeOverflow) <==> AddMinutes(lessons[n].date, 30).None?)
          && (HasTokens(jar) && AddMinutes(lessons[n].date, 30).Some? ==> m >= |replies| || !Deliverable(replies[m])))
  }

  /** A raise at the lesson after the handled ones ends the loop for one of
      the reasons `Stopped` lists. */
  lemma StoppedByRaise(jar: Jar, current: Jar, dir: Directory, pids: seq<int>, lessons: seq<Ics.Candidate>,
                       replies: seq<Reply<AddBody>>, outcomes: seq<bool>, sentAt: seq<Option<nat>>, o: AddOutcome)
    requires Covers(dir, pids)
    requires forall i :: 0 <= i < |lessons| ==> ValidDateTime(lessons[i].date)
    requires |outcomes| < |lessons| && (pids == [] ==> outcomes == [])
    requires HasTokens(jar) ==> HasTokens(current)
    requires o.result.Err?
    requires pids == [] ==> o.result == Err(NoProducts)
    requires pids != [] ==> Addable(dir, pids, lessons[|outcomes|].phone)
    requires o.result == Err(TimeOverflow) <==>
      Addable(dir, pids, lessons[|outcomes|].phone) && AddMinutes(lessons[|outcomes|].date, 30).None?
    requires (Addable(dir, pids, lessons[|outcomes|].phone) && AddMinutes(lessons[|outcomes|].date, 30).Some?
              && HasTokens(current)) ==> o.sent.Some?
    requires o.sent.Some? ==> !(SentCount(sentAt) < |replies| && Deliverable(replies[SentCount(sentAt)]))
    ensures Stopped(jar, dir, pids, lessons, replies, outcomes, sentAt, Some(o.result.error))
  {
  }

  /** What the record and the stopping reason imply: every `True` belongs
      to a resolvable lesson, and nothing raises when the products are
      configured, the jar is logged in, every end time exists and there is
      a deliverable answer for every lesson. */
  lemma StoppedSummary(jar: Jar, dir: Directory, pids: seq<int>, lessons: seq<Ics.Candidate>,
                       replies: seq<Reply<AddBody>>, outcomes: seq<bool>, sentAt: seq<Option<nat>>,
                       fatal: Option<SyncError>)
    requires Covers(dir, pids)
    requires forall i :: 0 <= i < |lessons| ==> ValidDateTime(lessons[i].date)
    requires Accounts(dir, pids, lessons, replies, outcomes, sentAt)
    requires Stopped(jar, dir, pids, lessons, replies, outcomes, sentAt, fatal)
    ensures forall i :: 0 <= i < |outcomes| && outcomes[i] ==> Addable(dir, pids, lessons[i].phone)
    ensures (pids != [] && HasTokens(jar) && |lessons| <= |replies|
             && (forall i :: 0 <= i < |replies| ==> Deliverable(replies[i]))
             && (forall i :: 0 <= i < |lessons| ==> AddMinutes(lessons[i].date, 30).Some?)) ==> fatal.None?
  {
    forall i | 0 <= i < |outcomes| && outcomes[i]
      ensures Addable(dir, pids, lessons[i].phone)
    {
      assert sentAt[i].Some?;
    }
    if pids != [] && HasTokens(jar) && |lessons| <= |replies|
       && (forall i :: 0 <= i < |replies| ==> Deliverable(replies[i]))
       && (forall i :: 0 <= i < |lessons| ==> AddMinutes(lessons[i].date, 30).Some?)
       && fatal.Some?
    {
      assert false;
    }
  }

  /** Appending one lesson handled without a raise keeps the record. */
  lemma AccountsGrow(dir: Directory, pids: seq<int>, lessons: seq<Ics.Candidate>, replies: seq<Reply<AddBody>>,
                     outcomes: seq<bool>, sentAt: seq<Option<nat>>, ok: bool, at: Option<nat>)
    requires Covers(dir, pids)
    requires Accounts(dir, pids, lessons, replies, outcomes, sentAt) && |outcomes| < |lessons|
    requires at.Some? <==> Addable(dir, pids, lessons[|outcomes|].phone)
    requires at.Some? ==> at.value == SentCount(sentAt) < |replies| && Deliverable(replies[at.value])
    requires ok <==> at.Some? && IsCreated(replies[at.value])
    ensures Accounts(dir, pids, lessons, replies, outcomes + [ok], sentAt + [at])
    ensures SentCount(sentAt + [at]) == SentCount(sentAt) + (if at.Some? then 1 else 0)
  {
    var s := sentAt + [at];
    assert s[..|s| - 1] == sentAt;
    forall i | 0 <= i < |sentAt|
      ensures s[..i] == sentAt[..i]
    {
    }
  }

  /** One turn of the loop: `add_event` on the lesson with the next unused
      reply, which is consumed only when a request was sent. */
  method HandleLesson(jar: Jar, userId: int, dir: Directory, pids: seq<int>,
                      lesson: Ics.Candidate, replies: seq<Reply<AddBody>>, k: nat) returns (o: AddOutcome, next: nat)
    requires Covers(dir, pids) && ValidDateTime(lesson.date) && k <= |replies|
    ensures next == (if o.sent.Some? && k < |replies| then k + 1 else k)
    ensures o.result.Err? ==> pids == [] || Addable(dir, pids, lesson.phone)
    ensures o.result == Ok(true) ==> Addable(dir, pids, lesson.phone)
    ensures (pids != [] && HasTokens(jar) && k < |replies| && Deliverable(replies[k])
             && AddMinutes(lesson.date, 30).Some?) ==> o.result.Ok?
    ensures o.result.Ok? && HasTokens(jar) ==> HasTokens(o.jar)
    ensures pids == [] ==> o == AddOutcome(jar, None, Err(NoProducts)) && next == k
    ensures pids != [] && !Addable(dir, pids, lesson.phone) ==> o == AddOutcome(jar, None, Ok(false)) && next == k
    ensures Addable(dir, pids, lesson.phone) && AddMinutes(lesson.date, 30).None? ==>
      o == AddOutcome(jar, None, Err(TimeOverflow)) && next == k
    ensures Addable(dir, pids, lesson.phone) && AddMinutes(lesson.date, 30).Some? && HasTokens(jar) ==> o.sent.Some?
    ensures o.sent.Some? ==> (Addable(dir, pids, lesson.phone)
      && LessonPayload(Resolve(dir, pids, lesson.phone).value, userId, lesson.date) == Some(o.sent.value.payload))
    ensures o.sent.Some? ==> CookieHeader(jar) == Some(o.sent.value.cookie) && XsrfHeader(jar) == Some(o.sent.value.xsrf)
    ensures o.sent.Some? ==> o.jar == Exchange(jar, if k < |replies| then replies[k] else NoReply).jar
    ensures o.sent.None? ==> o.jar == jar
    ensures o.result.Ok? ==> (o.sent.Some? <==> Addable(dir, pids, lesson.phone))
    ensures o.sent.Some? ==> (o.result.Ok? <==> k < |replies| && Deliverable(replies[k]))
    ensures o.sent.Some? && o.result.Ok? ==> (o.result.value <==> IsCreated(replies[k]))
    ensures HasTokens(jar) ==> HasTokens(o.jar)
    ensures o.result == Err(TimeOverflow) <==> Addable(dir, pids, lesson.phone) && AddMinutes(lesson.date, 30).None?
  {
    var reply := if k < |replies| then replies[k] else NoReply;
    o := AddEvent(jar, userId, dir, pids, lesson.phone, lesson.date, reply);
    next := if o.sent.Some? && k < |replies| then k + 1 else k;
  }

  /** `for event in events: success = bl.add_event(...)`: a `False` is
      recorded and the loop goes on; a raise ends it. The backend's answers to
      the creation requests come from `replies` in order; running out of them
      is a transport failure. */
  method SubmitAll(jar: Jar, userId: int, dir: Directory, pids: seq<int>,
                   lessons: seq<Ics.Candidate>, replies: seq<Reply<AddBody>>) returns (b: Batch)
    requires Covers(dir, pids)
    requires forall i :: 0 <= i < |lessons| ==> ValidDateTime(lessons[i].date)
    ensures |b.outcomes| <= |lessons|
    ensures b.fatal.None? ==> |b.outcomes| == |lessons|
    ensures b.fatal.Some? ==> |b.outcomes| < |lessons|
    ensures b.fatal.Some? ==> pids == [] || Addable(dir, pids, lessons[|b.outcomes|].phone)
    ensures forall i :: 0 <= i < |b.outcomes| && b.outcomes[i] ==> Addable(dir, pids, lessons[i].phone)
    ensures b.used <= |replies|
    ensures (pids != [] && HasTokens(jar) && |lessons| <= |replies|
             && (forall i :: 0 <= i < |replies| ==> Deliverable(replies[i]))
             && (forall i :: 0 <= i < |lessons| ==> AddMinutes(lessons[i].date, 30).Some?)) ==> b.fatal.None?
    ensures Accounts(dir, pids, lessons, replies, b.outcomes, b.sentAt)
    ensures Stopped(jar, dir, pids, lessons, replies, b.outcomes, b.sentAt, b.fatal)
    ensures b.fatal.None? ==> b.used == SentCount(b.sentAt)
    ensures HasTokens(jar) ==> HasTokens(b.jar)
    ensures b.jar.Keys == jar.Keys
    ensures b.fatal.None? && SentCount(b.sentAt) == 0 ==> b.jar == jar
    ensures b.fatal.None? && SentCount(b.sentAt) > 0 ==>
      SentCount(b.sentAt) <= |replies| && replies[SentCount(b.sentAt) - 1].Reply?
      && TokensFrom(b.jar, replies[SentCount(b.sentAt) - 1].cookies)
    ensures b.fatal.None? && SentCount(b.sentAt) > 0 ==>
      CookieHeader(b.jar) == CookieHeader(replies[SentCount(b.sentAt) - 1].cookies)
  {
    var current := jar;
    var outcomes: seq<bool> := [];
    var sentAt: seq<Option<nat>> := [];
    var k := 0;
    while |outcomes| < |lessons|
      invariant |outcomes| <= |lessons|
      invariant k == SentCount(sentAt) <= |replies|
      invariant HasTokens(jar) ==> HasTokens(current)
      invariant RotatedBy(jar, replies, k, current)
      invariant Accounts(dir, pids, lessons, replies, outcomes, sentAt)
      invariant pids == [] ==> outcomes == []
      decreases |lessons| - |outcomes|
    {
      var o, k', outcomes', sentAt' := Advance(jar, current, userId, dir, pids, lessons, replies, outcomes, sentAt, k);
      if o.result.Err? {
        StoppedSummary(jar, dir, pids, lessons, replies, outcomes, sentAt, Some(o.result.error));
        return Batch(o.jar, outcomes, sentAt, Some(o.result.error), k');
      }
      k, current, outcomes, sentAt := k', o.jar, outcomes', sentAt';
    }
    StoppedSummary(jar, dir, pids, lessons, replies, outcomes, sentAt, None);
    RotatedHeader(jar, replies, k, current);
    b := Batch(current, outcomes, sentAt, None, k);
  }

  /** The jar `current` after the loop, started from `start`, has used `m`
      creation replies: every reply rotates the two tokens and keeps the
      names, so it is `start` until the first and afterwards holds the tokens
      of the last. */
  predicate RotatedBy(start: Jar, replies: seq<Reply<AddBody>>, m: nat, current: Jar) {
    && current.Keys == start.Keys
    && (m == 0 ==> current == start)
    && (m > 0 ==> m <= |replies| && replies[m - 1].Reply? && TokensFrom(current, replies[m - 1].cookies))
  }

  /** The `Cookie` header of the rotated jar is the starting jar's until the
      first creation reply, and afterwards the one the last reply's cookies
      give. */
  lemma RotatedHeader(start: Jar, replies: seq<Reply<AddBody>>, m: nat, current: Jar)
    requires RotatedBy(start, replies, m, current)
    ensures m == 0 ==> CookieHeader(current) == CookieHeader(start)
    ensures m > 0 ==> m <= |replies| && replies[m - 1].Reply?
                      && CookieHeader(current) == CookieHeader(replies[m - 1].cookies)
  {
    if m > 0 {
      CookieHeaderOfTokens(current, replies[m - 1].cookies);
    }
  }

  /** A turn that does not raise keeps `RotatedBy`: a request that was sent
      and answered rotates the jar to the tokens of the reply it used. */
  lemma RotatedStep(start: Jar, current: Jar, replies: seq<Reply<AddBody>>, k: nat, o: AddOutcome, next: nat)
    requires RotatedBy(start, replies, k, current)
    requires o.sent.Some? ==> HasTokens(current) && o.jar == Exchange(current, if k < |replies| then replies[k] else NoReply).jar
    requires o.sent.None? ==> o.jar == current
    requires o.sent.Some? ==> (o.result.Ok? <==> k < |replies| && Deliverable(replies[k]))
    requires next == (if o.sent.Some? && k < |replies| then k + 1 else k)
    ensures o.jar.Keys == start.Keys
    ensures o.result.Ok? ==> RotatedBy(start, replies, next, o.jar)
  {
  }

  /** One turn of the loop of `SubmitAll` from the state `current`,
      `outcomes`, `sentAt`, `k`: either the next lesson raises, and the loop
      stops for a reason `Stopped` lists, or the record grows by it. */
  method Advance(jar: Jar, current: Jar, userId: int, dir: Directory, pids: seq<int>, lessons: seq<Ics.Candidate>,
                 replies: seq<Reply<AddBody>>, outcomes: seq<bool>, sentAt: seq<Option<nat>>, k: nat)
    returns (o: AddOutcome, k': nat, outcomes': seq<bool>, sentAt': seq<Option<nat>>)
    requires Covers(dir, pids)
    requires forall i :: 0 <= i < |lessons| ==> ValidDateTime(lessons[i].date)
    requires |outcomes| < |lessons| && k == SentCount(sentAt) <= |replies|
    requires HasTokens(jar) ==> HasTokens(current)
    requires Accounts(dir, pids, lessons, replies, outcomes, sentAt)
    requires pids == [] ==> outcomes == []
    requires RotatedBy(jar, replies, k, current)
    ensures k' <= |replies|
    ensures HasTokens(jar) ==> HasTokens(o.jar)
    ensures o.result.Err? ==> Stopped(jar, dir, pids, lessons, replies, outcomes, sentAt, Some(o.result.error))
    ensures o.result.Ok? ==> pids != [] && |outcomes'| == |outcomes| + 1 && k' == SentCount(sentAt')
    ensures o.result.Ok? ==> outcomes' == outcomes + [o.result.value]
    ensures o.result.Ok? ==> Accounts(dir, pids, lessons, replies, outcomes', sentAt')
    ensures o.jar.Keys == jar.Keys
    ensures o.result.Ok? ==> RotatedBy(jar, replies, k', o.jar)
  {
    o, k' := HandleLesson(current, userId, dir, pids, lessons[|outcomes|], replies, k);
    if o.result.Err? {
      StoppedByRaise(jar, current, dir, pids, lessons, replies, outcomes, sentAt, o);
      outcomes', sentAt' := outcomes, sentAt;
    } else {
      var at: Option<nat> := if o.sent.Some? then Some(k) else None;
      AccountsGrow(dir, pids, lessons, replies, outcomes, sentAt, o.result.value, at);
      RotatedStep(jar, current, replies, k, o, k');
      outcomes', sentAt' := outcomes + [o.result.value], sentAt + [at];
    }
  }
}

=== FILE: text.dfy ===
/**
  String helpers with Python's semantics: `str.split` on a non-empty
  separator, `str.replace` of `%3D` by `=`, and zero-padded decimal fields
  as written by `strftime` and read by `strptime`.
*/
module Text {
  import opened Wrappers

  predicate IsDigit(c: char) {
    '0' <= c <= '9'
  }

  predicate AllDigits(s: string) {
    forall i :: 0 <= i < |s| ==> IsDigit(s[i])
  }

  function Pow10(w: nat): nat {
    if w == 0 then 1 else 10 * Pow10(w - 1)
  }

  function DigitChar(k: int): char
    requires 0 <= k < 10
  {
    ('0' as int + k) as char
  }

  /** `n` written in exactly `w` decimal digits with leading zeros (`%04d`, `%02d`). */
  function Pad(n: nat, w: nat): (r: string)
    ensures |r| == w && AllDigits(r)
  {
    if w == 0 then "" else Pad(n / 10, w - 1) + [DigitChar(n % 10)]
  }

  /** The value of a run of decimal digits (`int(s)` on digits only). */
  function DigitsValue(s: string): nat
    requires AllDigits(s)
  {
    if s == [] then 0
    else DigitsValue(s[..|s| - 1]) * 10 + (s[|s| - 1] as int - '0' as int)
  }

  /** Reading back a padded field gives its value whenever it fits the width. */
  lemma {:induction false} PadRoundTrip(n: nat, w: nat)
    requires n < Pow10(w)
    ensures DigitsValue(Pad(n, w)) == n
  {
    if w > 0 {
      var p := Pad(n, w);
      assert p[..|p| - 1] == Pad(n / 10, w - 1);
      PadRoundTrip(n / 10, w - 1);
    }
  }

  /** Every run of digits is the padded form of its value. */
  lemma {:induction false} DigitsRoundTrip(x: string)
    requires AllDigits(x)
    ensures DigitsValue(x) < Pow10(|x|)
    ensures Pad(DigitsValue(x), |x|) == x
  {
    if x != [] {
      var init := x[..|x| - 1];
      DigitsRoundTrip(init);
      var d := x[|x| - 1] as int - '0' as int;
      assert DigitsValue(x) / 10 == DigitsValue(init);
      assert DigitsValue(x) % 10 == d;
      assert DigitChar(d) == x[|x| - 1];
      assert x == init + [x[|x| - 1]];
    }
  }

  // ---------------------------------------------------------------------
  // str.split with a non-empty separator

  predicate OccursAt(s: string, sep: string, j: int) {
    0 <= j && j + |sep| <= |s| && s[j..j + |sep|] == sep
  }

  predicate Contains(s: string, sep: string) {
    exists j :: 0 <= j <= |s| && OccursAt(s, sep, j)
  }

  /** The first position of `sep` in `s` at or after `from`. */
  function FindFrom(s: string, sep: string, from: nat): (r: Option<nat>)
    requires |sep| > 0
    ensures r.Some? ==> from <= r.value && OccursAt(s, sep, r.value)
    ensures r.Some? ==> forall j :: from <= j < r.value ==> !OccursAt(s, sep, j)
    ensures r.None? ==> forall j :: from <= j ==> !OccursAt(s, sep, j)
    decreases |s| - from
  {
    if from + |sep| > |s| then None
    else if OccursAt(s, sep, from) then Some(from)
    else FindFrom(s, sep, from + 1)
  }

  /** The first position of `sep` in `s` (`str.find`). */
  function Find(s: string, sep: string): (r: Option<nat>)
    requires |sep| > 0
    ensures r.Some? ==> OccursAt(s, sep, r.value)
    ensures r.Some? ==> forall j :: 0 <= j < r.value ==> !OccursAt(s, sep, j)
    ensures r.None? <==> !Contains(s, sep)
  {
    FindFrom(s, sep, 0)
  }

  /** `s.split(sep)` */
  function Split(s: string, sep: string): (r: seq<string>)
    requires |sep| > 0
    ensures |r| >= 1
    decreases |s|
  {
    match Find(s, sep)
    case None => [s]
    case Some(i) => [s[..i]] + Split(s[i + |sep|..], sep)
  }

  /** `sep.join(parts)` */
  function Join(parts: seq<string>, sep: string): string {
    if parts == [] then ""
    else if |parts| == 1 then parts[0]
    else parts[0] + sep + Join(parts[1..], sep)
  }

  /** Splitting loses nothing: joining the pieces back gives the text. */
  lemma {:induction false} SplitJoin(s: string, sep: string)
    requires |sep| > 0
    ensures Join(Split(s, sep), sep) == s
    decreases |s|
  {
    match Find(s, sep)
    case None =>
    case Some(i) =>
      var rest := s[i + |sep|..];
      var tail := Split(rest, sep);
      var parts := [s[..i]] + tail;
      assert Split(s, sep) == parts;
      assert parts[1..] == tail;
      assert Join(parts, sep) == s[..i] + sep + Join(tail, sep);
      SplitJoin(rest, sep);
      assert s == s[..i] + s[i..i + |sep|] + rest;
  }

  /** No piece of a split holds the separator. */
  lemma {:induction false} SplitPiecesFree(s: string, sep: string)
    requires |sep| > 0
    ensures forall k :: 0 <= k < |Split(s, sep)| ==> !Contains(Split(s, sep)[k], sep)
    decreases |s|
  {
    match Find(s, sep)
    case None =>
    case Some(i) =>
      var rest := s[i + |sep|..];
      SplitPiecesFree(rest, sep);
      forall j | OccursAt(s[..i], sep, j)
        ensures false
      {
        assert s[..i][j..j + |sep|] == s[j..j + |sep|];
        assert OccursAt(s, sep, j);
      }
  }

  // ---------------------------------------------------------------------
  // str.replace('%3D', '=') and its inverse

  /** `s.replace('%3D', '=')`: left to right, non-overlapping. */
  function UnquoteEquals(s: string): string {
    if |s| >= 3 && s[..3] == "%3D" then "=" + UnquoteEquals(s[3..])
    else if s == [] then []
    else [s[0]] + UnquoteEquals(s[1..])
  }

  /** Percent-encoding of `=` as a cookie value carries it. */
  function QuoteEquals(s: string): string {
    if s == [] then []
    else if s[0] == '=' then "%3D" + QuoteEquals(s[1..])
    else [s[0]] + QuoteEquals(s[1..])
  }

  /** Decoding undoes the encoding of `=` in any value that held no `%` of its own. */
  lemma {:induction false} UnquoteQuote(s: string)
    requires forall i :: 0 <= i < |s| ==> s[i] != '%'
    ensures UnquoteEquals(QuoteEquals(s)) == s
  {
    if s != [] {
      UnquoteQuote(s[1..]);
      var q := QuoteEquals(s[1..]);
      if s[0] == '=' {
        assert ("%3D" + q)[..3] == "%3D";
        assert ("%3D" + q)[3..] == q;
      } else {
        assert ([s[0]] + q)[1..] == q;
      }
    }
  }
}

=== FILE: wrappers.dfy ===
/** Failure-carrying values shared by every module of the model. */
module Wrappers {

  /** A value that may be absent (Python's `None`). */
  datatype Option<+T> = None | Some(value: T)

  /** The outcome of a step of the program that may raise. */
  datatype Result<+T, +E> = Ok(value: T) | Err(error: E) {
    predicate IsFailure() { Err? }

    function PropagateFailure<U>(): Result<U, E>
      requires Err?
    {
      Err(error)
    }

    function Extract(): T
      requires Ok?
    {
      value
    }
  }
}
